=== FILE: README.md ===
# Live distance and GPS map: a Dafny model of the reading logic

The repository drives an ultrasonic rover and a GPS tracker. Arduino and
ESP8266 firmware print readings over serial ports and TCP. Python scripts
read those lines and plot them, or serve them to a map. Almost all of it is
I/O glue. This project models the small pieces of logic inside the loops as
pure step functions over explicit state, and proves what those steps
guarantee:

- **`map_2D.py`** (`Map2D`, with the shared `ReadingHistory`):
  - a byte buffer frames newline-terminated lines out of TCP chunks, at most one line per animation frame;
  - accepted distances go into parallel `x_data`/`y_data` lists;
  - the x-window and the per-segment fill polygons are rebuilt from those lists.
- **`Old_Robot/Old_map.py`** (`OldMap`): the serial version of the same plot. It reads one line per frame and reuses the same append and window.
- **`SVmap_GPS.py`** (`GpsAssembler`): the GPS reader thread. It is a line-driven state machine that assembles latitude, longitude and satellite lines into fixes, plus the `/location` response.
- **`Codes/GPS.c++`** (`GpsBlock`): the four-line block the GPS firmware prints. When its numbers read back and the commit does not raise, it adds exactly that fix in the reader above. When the commit raises, it adds nothing and the three values stay pending.
- **`Codes/esp_hotspot.c++`** (`EspHotspot`): the ESP8266 loop.
  - It assembles characters into trimmed lines and keeps the newest one in a 10-byte C buffer.
  - It sends a reading only while a client is connected, at most once, and no earlier than 50 ms after it arrived, measured with wrapping 32-bit `millis()`. A newer line that arrives first replaces it unsent.
- **`aa.py`** (`DistanceWindow`): the 50-sample deque fed from TCP chunks, with its `d == 0 or d > 200` filter and the red/blue danger colour.
- **`Codes/temp.py`** (`CoordsServer`): a `"lat,lon"` payload parser and the map thread's "changed and not at the origin" render gate.

Shared modules:

- `Seqs`: index, split and join, strip, the last `n` elements.
- `PyText`: Python's `str.isspace`, `strip`, `startswith` and `splitlines`.
- `PyFloat`: Python floats as reals, infinities and NaN, with IEEE comparisons and `min`.
- `Wrappers`: `Option`.
- `Bytes`: a byte type, with `\n` and `\r`.

Python's string operations are modelled exactly. `float()`, `int()`,
`bytes.decode`, `haversine` and the speed and distance arithmetic are not
modelled: each is a function parameter, so every property holds whatever
those functions do. Sockets, serial ports, clocks and threads become inputs:

- the outcome of `recv`;
- the decoded line;
- the `time.time()` or `millis()` reading;
- whether a client is connected;
- an interleaving of the two threads as a sequence of events.

`millis()` returns an `unsigned long`. The model makes it an integer type
below 2^32 and writes the subtraction out modulo 2^32.

One behaviour of the code is easy to miss: a separator line in
`SVmap_GPS.py` reads as if it cleared the pending fields every time (line 64).
If the commit raises, the reset never runs, so all three fields survive and the
state is unchanged. The commit raises in two cases:

- `haversine` raises. A rounding residue can make `math.sqrt` see a negative number. Infinite coordinates can also do it, because `float()` accepts `inf` and `math.sin` and `math.cos` of an infinity raise (`SVmap_GPS.py`:18-22). An infinite latitude on either fix always makes it raise. An infinite longitude makes it raise unless the other longitude is the same infinity or NaN: the difference is then NaN, `math.sin` of NaN returns NaN, and `haversine` returns NaN without raising. So after a first fix with an infinite latitude every later commit raises, but an infinite longitude alone does not have that effect.
- Two fixes share a timestamp, and `distance/dt` divides by zero.

`GpsAssembler.Step` models the code.

## Model

| member | source | states |
|---|---|---|
| Map2D.Frame | map_2D.py:71-76 | An empty chunk changes nothing. Without a newline the chunk is appended and no line comes out. With one, old buffer + chunk = line + `\n` + new buffer, the line is what precedes the first newline, and exactly one newline is consumed, so any later complete lines stay buffered. |
| Map2D.Receive | map_2D.py:68-82 | Without a socket nothing happens. A timeout or an empty chunk leaves the buffer alone. Any other exception drops the socket. Readings, window and fill are never touched. |
| Map2D.Reading | map_2D.py:75-88 | A missing line or one that decodes to blanks gives no reading, whatever `float()` does. Any other line gives exactly `float()` of the decoded, stripped line, and every reading is that. |
| Map2D.Update | map_2D.py:84-114 | A frame without a parseable non-empty line leaves readings, window and fill unchanged. A reading is appended once to both lists, `index` advances, the window is `XLimits(index)` and the fill has `index - 1` polygons. The list invariant is kept. |
| Map2D.FrameConservesBytes | map_2D.py:72-76 | Per frame, old buffer + chunk is the extracted line with its newline, followed by the new buffer. |
| Map2D.StreamConservesBytes | map_2D.py:68-76 | Over any sequence of chunks, the lines handed on (each with its newline) followed by the final buffer are exactly the received bytes in order. |
| ReadingHistory.AppendValid | map_2D.py:90-93 | An append keeps `len(x_data) == len(y_data) == index` and `x_data[i] == i`. It adds the reading last to both lists and keeps every earlier element. |
| ReadingHistory.XLimits | map_2D.py:94 | The window is `[max(0, index-100), index]`. The lower bound is at least 0, and the width is `index` up to 100, then exactly 100. |
| ReadingHistory.WindowShowsNewest | map_2D.py:94 | A stored reading lies inside the window iff it is one of the newest 100. |
| ReadingHistory.Fill | map_2D.py:100-112 | One polygon per consecutive pair of readings, in order, none for fewer than two. Polygon `i-1` has corners `(x[i-1],0),(x[i-1],y[i-1]),(x[i],y[i]),(x[i],0)` and key `min(y[i-1], y[i])`. |
| ReadingHistory.FillGeometry | map_2D.py:104-112 | Each polygon spans x from `i-1` to `i`. For two numbers its key is the lower distance. |
| PyFloat.Min | map_2D.py:112 | Python `min` returns one of its arguments, and with no NaN it is not above either. |
| PyFloat.MinOfFinite | map_2D.py:112 | On numbers, Python `min` is the mathematical minimum. |
| OldMap.Reading | Old_Robot/Old_map.py:26-29 | A blank line gives no reading, whatever `float()` does. Any other line gives exactly `float()` of the stripped line, and every reading is that. |
| OldMap.ReadingIgnoresPadding | Old_Robot/Old_map.py:26-29 | Blanks around a number, such as the `\r\n` Arduino's `println` sends, do not change the reading: it is `float()` of the number alone. |
| OldMap.Update | Old_Robot/Old_map.py:24-40 | A blank line or a parse failure changes nothing. An accepted reading appends the counter and the distance, advances the counter and sets the window to `[max(0, index-100), index]`. The invariant is kept. |
| OldMap.Run | Old_Robot/Old_map.py:24-40 | Any number of frames keep the list invariant. |
| OldMap.RunKeepsEverything | Old_Robot/Old_map.py:18-35 | The stored history is never truncated: after any run it is the old history followed by exactly the accepted distances, and the counter equals the number stored. |
| GpsAssembler.Step | SVmap_GPS.py:29-67 | A tagged line sets only its own pending field, and only when its number parses; a later line of the same kind overwrites it. A separator without both coordinates clears the pending fields and changes nothing else. With both, it commits and clears, unless the commit raises, which leaves everything unchanged. Any other line changes nothing. |
| GpsAssembler.Field | SVmap_GPS.py:33-37 | `split(":")[1].strip()` is the text between the first colon and the next one (or the end), stripped. It never holds a colon. |
| GpsAssembler.Elapsed | SVmap_GPS.py:48 | A missing or zero `last_time` gives 1. Otherwise `last_time + dt == now`, and `dt` is 0 exactly when `now` equals a non-zero `last_time`. |
| GpsAssembler.Raises | SVmap_GPS.py:41-52 | The first fix never raises. A later one raises exactly when `haversine` raises or its timestamp equals a non-zero `last_time`. |
| GpsAssembler.Run | SVmap_GPS.py:29-68 | Over any lines, the history is only extended, never rewritten: the old history is a prefix, at most one fix is added per line, and lines without a separator add none. |
| GpsAssembler.KindOf | SVmap_GPS.py:32-38 | The `startswith` chain classifies the line; every tagged line has a colon to split on. |
| GpsAssembler.Commit | SVmap_GPS.py:41-61 | The fix goes last into the history. `latest_data` takes its coordinates and the reported satellites, and `last_time` becomes now. The first fix has speed 0 and distance 0. |
| GpsAssembler.Reported | SVmap_GPS.py:59 | Reported satellites are the pending value when it is truthy, otherwise 0; `None` and 0 both give 0. |
| GpsAssembler.SeparatorCommitsAtMostOnce | SVmap_GPS.py:38-64 | A separator grows the history by at most one fix. That fix is the pending pair, mirrored into `latest_data`. Without both coordinates, history and `latest_data` are unchanged. Afterwards the pending fields are clear, or the state is unchanged when the commit raised. |
| GpsAssembler.Location | SVmap_GPS.py:79 | The response has every key of `latest_data` with its value, plus `path` holding the whole history. |
| GpsBlock.BlockCommitsOneFix | Codes/GPS.c++:23-29 | Round trip: one printed block, with numbers that `float()`/`int()` read back, appends exactly that fix to the reader's history. It sets `latest_data`'s coordinates and satellites and `last_time`, and leaves nothing pending, whatever was pending before. Premise: the commit does not raise. |
| GpsBlock.RaisingBlockCommitsNothing | Codes/GPS.c++:23-29 | When the commit of a printed block raises, the history, `latest_data` and `last_time` are unchanged, and the block's latitude, longitude and satellite count stay pending. |
| GpsBlock.LatitudeStep | Codes/GPS.c++:23-24 | The printed latitude line sets the pending latitude and nothing else. |
| GpsBlock.LongitudeStep | Codes/GPS.c++:25-26 | The printed longitude line sets the pending longitude and nothing else. |
| GpsBlock.SatellitesStep | Codes/GPS.c++:27-28 | The printed satellite line sets the pending satellite count and nothing else. |
| GpsBlock.SeparatorField | Codes/GPS.c++:29 | The printed dashes strip to the separator the reader looks for. |
| GpsBlock.TaggedField | Codes/GPS.c++:23-28 | A printed "tag value" line strips to itself without "\r\n", starts with its tag, and its field is the printed value. |
| EspHotspot.Trim | Codes/esp_hotspot.c++:51 | `trim()` gives the slice of the line from its first non-blank byte to its last; what it cuts off on either side is blank. It is empty exactly when the line is all blanks, including `\r`. |
| EspHotspot.ReadChar | Codes/esp_hotspot.c++:48-61 | `\n` always empties the pending string. A line that trims to empty leaves the buffer and the time alone. A non-empty one replaces the buffer, sent or not, and sets the time to now. `\r` is dropped and other bytes are appended, so the pending string never holds a line end. |
| EspHotspot.ToCharArray | Codes/esp_hotspot.c++:54 | The buffer holds the longest NUL-free prefix of the line that fits in nine bytes, the tenth being the terminator. |
| EspHotspot.ReadAll | Codes/esp_hotspot.c++:48-61 | Reading the available bytes never puts a line end into the pending string and keeps the buffer at most nine NUL-free bytes. Without a newline, only the pending string grows, by exactly the bytes other than `\r`. The buffer and the time stay as they were. |
| EspHotspot.WrapSub | Codes/esp_hotspot.c++:66 | Unsigned subtraction: the true difference when `now >= previous`, otherwise that difference plus 2^32. Adding it back to `previous` modulo 2^32 gives `now`. |
| EspHotspot.Loop | Codes/esp_hotspot.c++:41-73 | What a loop sends ends in `\r\n`, goes only to a connected client, and carries at most nine bytes with no NUL. Every loop keeps the buffer's shape. A loop that read no newline can only send the reading that was already buffered. |
| EspHotspot.Gate | Codes/esp_hotspot.c++:63-72 | A send happens only with a connected client and a non-empty buffer. It prints the buffer with "\r\n", empties the buffer and restarts the interval. Without a send nothing changes. |
| EspHotspot.GateMeasuresTrueElapsed | Codes/esp_hotspot.c++:64-66 | Despite the wrap of `millis()`, whenever less than 2^32 ms really passed, a send happens exactly when a client is connected, there is a reading, and at least 50 ms really passed. |
| EspHotspot.BlankLinesKeepReading | Codes/esp_hotspot.c++:49-58 | Bytes whose completed lines all trim to nothing leave the buffer and the time alone. |
| EspHotspot.BlankLinesSplit | Codes/esp_hotspot.c++:48-61 | The completed lines of two runs of input are all blank exactly when those of each part are, the second read on from the pending string the first left. |
| EspHotspot.Loops | Codes/esp_hotspot.c++:41-73 | Repeated calls of `loop()` send at most one message per call, each ending in `\r\n`, and keep the buffer's shape. |
| EspHotspot.QuietLoopsSendNothing | Codes/esp_hotspot.c++:49-70 | From an empty buffer, any number of calls that complete no line trimming to something send nothing and leave the buffer empty, whatever the client and the clock do. |
| EspHotspot.NothingBeforeFirstLine | Codes/esp_hotspot.c++:64 | Over any number of calls, nothing is sent before the first line that trims to something: the zeroed global buffer is an empty C string. |
| EspHotspot.SentAtMostOnce | Codes/esp_hotspot.c++:67-70 | After a send, nothing more is sent over any number of calls until a line that trims to something has been completed. |
| EspHotspot.NoLineNoReading | Codes/esp_hotspot.c++:48-61 | Without a newline, an empty buffer stays empty. |
| EspHotspot.LoopKeepsValid | Codes/esp_hotspot.c++:48-72 | After any loop, the buffer holds at most nine NUL-free bytes and the pending string holds no `\r` or `\n`. |
| DistanceWindow.Rejected | aa.py:41 | Exactly zero, numbers above 200 and +inf are rejected. Negative numbers, -inf and NaN pass. |
| DistanceWindow.Lines | aa.py:36-38 | The chunk has no lines exactly when it is all blanks. No line holds a break, and laid end to end the lines are the stripped chunk without its break characters. A stripped chunk without a boundary is one line. |
| DistanceWindow.LinesCutAtBreak | aa.py:36-38 | When the first boundary in the stripped chunk is a single character (`\n`, a lone `\r`, `\v`, `\f`, `\x1c`-`\x1e`, `\x85`, `\u2028`, `\u2029`), the text before it is the first line and the rest of the chunk is split on its own. |
| DistanceWindow.LinesCutAtCrLf | aa.py:36-38 | The same at `\r\n`, the ending `client.println` sends: it cuts once, with no empty line between. |
| DistanceWindow.Kept | aa.py:40-45 | A line contributes at most one value. It contributes none exactly when `float()` fails or the value is rejected, and otherwise the value `float()` gave. |
| DistanceWindow.Next | aa.py:40-45 | A line that fails to parse or is rejected leaves the deque as it was. An accepted value drops the oldest element and goes last. The length stays 50. |
| DistanceWindow.Ingest | aa.py:38-45 | The inner loop over a chunk's lines keeps the deque at exactly 50 elements. |
| DistanceWindow.Push | aa.py:43 | An append to the full deque drops the oldest value and puts the new one last; the length stays 50. |
| DistanceWindow.Update | aa.py:34-47 | A failed `recv`/`decode` changes nothing. Otherwise the deque keeps 50 elements and holds the newest of the old values followed by every accepted value of the chunk, in order. |
| DistanceWindow.Accepted | aa.py:38-45 | The accepted values are at most one per line and none is rejected. |
| DistanceWindow.IngestKeepsNewest | aa.py:38-45 | The inner loop equals the last 50 of old values followed by the accepted ones. |
| DistanceWindow.BadLineSkipped | aa.py:38-45 | A line that does not parse or is rejected is skipped, whether it ends in `\n` or in `\r\n`; the rest of the chunk is read as if it were absent. |
| DistanceWindow.BadLineSkippedAtBreak | aa.py:38-45 | The same for a line ended by any other single boundary character: it is skipped on its own and the rest of the chunk is still read. |
| DistanceWindow.UpdatesCompose | aa.py:36-38 | Chunks are split independently: two frames give the window over both chunks' accepted values, and no partial line is carried over. |
| DistanceWindow.LineColour | aa.py:50-53 | Under IEEE comparison the line is red exactly when the newest value is below 15 or is -inf. NaN and +inf give blue. |
| DistanceWindow.ColourFollowsNewest | aa.py:50-53 | After a frame, the line is red iff the newest accepted value is below 15 (or -inf). A chunk with nothing accepted keeps the colour. |
| CoordsServer.Receive | Codes/temp.py:18-26 | Payloads that are empty, or whose comma count is not exactly one, change nothing. With one comma, `coords` becomes both parsed fields if both parse, and otherwise nothing changes. `last_coords` is never touched. |
| CoordsServer.Poll | Codes/temp.py:33-39 | A pass renders exactly when `coords` is not the very list `last_coords` holds, differs from it element-wise, and is not (0, 0). A render shows `coords`, and afterwards `last_coords` is `coords`. A pass without a render changes nothing. |
| CoordsServer.Handle | Codes/temp.py:16-40 | One event renders at most one position. After a render `last_coords` is that position. Without a render `last_coords` stays as it was. |
| CoordsServer.HandleRendersChange | Codes/temp.py:34-39 | What one event renders differs element-wise from the previous `last_coords` and is not (0, 0). |
| CoordsServer.Run | Codes/temp.py:16-40 | Over any interleaving of payloads and map passes, there is at most one render per event. At the end `last_coords` is the last rendered position, or unchanged if nothing was rendered. |
| CoordsServer.RendersAlwaysChange | Codes/temp.py:34-39 | Over any interleaving, the first render differs from the initial `last_coords`, and every render differs from the one before it. |
| CoordsServer.FreshFixRendered | Codes/temp.py:20-39 | The converse of the gate: a printed payload that differs from the last render and is not (0, 0), followed by one map pass, renders exactly that fix. |
| CoordsServer.NoDoubleRender | Codes/temp.py:34-39 | Straight after a render, the next pass renders nothing. |
| CoordsServer.SameFixNotRerendered | Codes/temp.py:34-39 | A payload with the coordinates just rendered, number for number, is not rendered again. |
| CoordsServer.OriginNeverRendered | Codes/temp.py:34 | Over any interleaving of payloads and map passes, (0, 0) is never rendered. |
| CoordsServer.NothingBeforeFirstPayload | Codes/temp.py:30-34 | From the initial `[0, 0]` lists, map passes alone render nothing. |
| CoordsServer.PayloadRoundTrip | Codes/temp.py:21-23 | A "lat,lon" payload of two printed numbers that `float()` reads back sets `coords` to exactly those numbers. |
| CoordsServer.BluetoothRecordRejected | Codes/GPS+Bluetooth.c++:41-47 | The four-field record that firmware prints is always rejected by the parser, whatever its fields. |
| PyText.SplitLines | aa.py:38 | `splitlines` gives no lines exactly for the empty string, and one line, the text itself, for a text without boundaries. No line contains a line break, and laid end to end the lines are the text with its break characters removed. |
| PyText.SplitLinesCons | aa.py:38 | A break-free line followed by `\n`, or by the `\r\n` that `client.println` sends, is split off as one line before the rest. |
| PyText.SplitLinesAtBreak | aa.py:38 | A break-free line followed by any single boundary character (a `\r` only when no `\n` follows) is split off before the rest. Together with `SplitLinesCons` and the single-line case of `SplitLines`, every kind of first boundary is covered. |
| Seqs.JoinSplit | map_2D.py:73-76 | Joining the parts of a split with the separator gives back the original bytes. |
| Seqs.SplitJoin | map_2D.py:73-76 | Separator-free parts come back unchanged from splitting their join. |
| Seqs.Strip | SVmap_GPS.py:31 | `strip` removes exactly the leading and trailing blanks: the result is a slice, what was cut is blank, its ends are not blank, and it is empty iff everything was blank. |
| Seqs.StripIdempotent | SVmap_GPS.py:31-33 | Stripping twice is stripping once. |
| Seqs.LastNAppend | aa.py:20 | A `maxlen` deque that drops early holds the same elements as the tail of the full history. |

## Left out

- Sockets, serial ports, HTTP (Flask routes, `requests`), `folium`, the browser and file saving are not modelled. Their results are inputs to the step functions.
- matplotlib rendering, the colormap and its normalisation (`map_2D.py`:20-32, 101-102, 113-129) are not modelled. Only the polygon structure and the `min` colour key are kept.
- `float()`, `int()`, `bytes.decode` and `haversine` are not modelled, and neither is the speed and distance arithmetic (`SVmap_GPS.py`:16-23, 41-50). They are function parameters, and no numeric fact about them is proved. Python's float rounding is not modelled; the `Float` type has reals, infinities and NaN, with IEEE comparisons but without signed zero.
- `time.time()` and `millis()` are inputs. Whether a commit raises is decided from `haversine`'s result and the elapsed time, not computed.
- Threads: `SVmap_GPS.py` runs its reader on a thread, and `Codes/temp.py` shares `coords` unsynchronised between two threads. Each loop iteration is modelled as one sequential step, with interleavings as an input sequence.
- Map2D.Update: `decode(errors='ignore')` is a parameter, so which bytes it drops is not modelled.
- OldMap.Update: the line is modelled already decoded. A `decode` failure at `Old_Robot/Old_map.py`:26 happens outside the `try` and would end the animation.
- CoordsServer.Receive: the payload is modelled already decoded. `decode` at `Codes/temp.py`:18 is outside the `try`, so a bad payload would end the server thread.
- EspHotspot.ToCharArray: only the C string in `distanceChar` is modelled. The bytes after its terminator are never read.
- EspHotspot: accepting the TCP client (lines 43-45) is modelled as the `connected` input.
- Debug output is not modelled: `Serial.println("Distance: " + distanceStr)` (`Codes/esp_hotspot.c++`:53), `print("GPS read error:", e)` (`SVmap_GPS.py`:67) and `print(f"Received: {coords}")` (`Codes/temp.py`:24). None of it affects the state.
- `test.py`, the top-level `temp.py`, the other map scripts, `Codes/2D.c++`, `Codes/GPS+wifi.c++` and `Codes/esp_wifi.c++` are not part of this model. They are library glue, a port check, or variants of the scripts modelled here.
- `Codes/GPS.c++` is modelled only as the text it prints. TinyGPS++ decoding and the number formatting are parameters: the printed text, related to `float()` and `int()` only by the round trip's premise.
- GpsAssembler.Step: when `readline` times out (the one-second `timeout` at `SVmap_GPS.py`:10) it returns whatever it had read, which may be empty or a partial line. The model takes any string as the line, so both are covered: an empty line is untagged, and a partial line is classified by what it starts with. The `time.sleep` pacing is not modelled.

=== FILE: bytes.dfy ===
/** Bytes as the firmware and the socket readers see them. */
module Bytes {

  newtype byte = b: int | 0 <= b < 256

  /** '\n' and '\r' */
  const LF: byte := 10
  const CR: byte := 13
}

=== FILE: coords_server.dfy ===
/** `Codes/temp.py`: a TCP server thread that takes "lat,lon" payloads into
    the shared `coords`, and a map thread that re-renders the map whenever
    `coords` has changed and is not the origin. The two threads are modelled
    as one sequence of events: a decoded payload arriving, or one pass of the
    map loop. The socket, `folium` and the browser are left out; `float()` is
    a parameter. */
module CoordsServer {
  import opened Wrappers
  import opened Seqs
  import PyText
  import opened PyFloat

  /** A latitude and longitude pair, `[lat, lon]`. */
  datatype Coords = Coords(lat: Float, lon: Float)

  /** `[0, 0]` */
  const Origin: Coords := Coords(FromInt(0), FromInt(0))

  /** Both threads' state: `coords`, the map thread's `last_coords`, and
      whether the two names refer to the same list object, as they do right
      after a render (line 39). Python's `!=` on lists is false for the same
      object even when it holds NaN, so identity is part of the state. */
  datatype Viewer = Viewer(coords: Coords, last: Coords, aliased: bool)

  /** Lines 8 and 30: two distinct lists `[0, 0]`. */
  const Initial: Viewer := Viewer(Origin, Origin, false)

  /** Element-wise `==` of two fresh lists. */
  predicate Same(a: Coords, b: Coords) {
    Eq(a.lat, b.lat) && Eq(a.lon, b.lon)
  }

  /** Lines 18-26 for one decoded payload. An empty payload is ignored; a
      payload with exactly one comma whose two fields both parse replaces
      `coords` with a new list; anything else (one field, three or more, a
      field `float()` rejects) raises inside the `try` and changes nothing.
      `last_coords` is never touched here. */
  function Receive(v: Viewer, data: string, parse: string -> Option<Float>): (v': Viewer)
    ensures v'.last == v.last
    ensures PyText.Strip(data) == [] ==> v' == v
    ensures multiset(data)[','] != 1 ==> v' == v
    ensures multiset(data)[','] == 1 ==>
      var parts := Split(PyText.Strip(data), ',');
      && |parts| == 2
      && (parse(parts[0]).Some? && parse(parts[1]).Some? ==>
            v' == Viewer(Coords(parse(parts[0]).value, parse(parts[1]).value), v.last, false))
      && (parse(parts[0]).None? || parse(parts[1]).None? ==> v' == v)
  {
    var text := PyText.Strip(data);
    StripKeepsNonBlank(data, PyText.IsSpace, ',');
    if |text| > 0 then
      var parts := Split(text, ',');
      if |parts| == 2 && parse(parts[0]).Some? && parse(parts[1]).Some? then
        Viewer(Coords(parse(parts[0]).value, parse(parts[1]).value), v.last, false)
      else v
    else v
  }

  /** Lines 33-40, one pass: the map is rendered when `coords` differs from
      `last_coords` and is not `[0, 0]`; rendering makes `last_coords` the
      very list `coords` holds. */
  function Poll(v: Viewer): (r: (Viewer, Option<Coords>))
    ensures r.1.Some? <==> !v.aliased && !Same(v.coords, v.last) && !Same(v.coords, Origin)
    ensures r.1.Some? ==> r.1.value == v.coords && !Same(v.coords, Origin)
    ensures r.1.Some? ==> r.0 == Viewer(v.coords, v.coords, true)
    ensures r.1.None? ==> r.0 == v
  {
    var differs := !v.aliased && !Same(v.coords, v.last);
    if differs && !Same(v.coords, Origin) then (Viewer(v.coords, v.coords, true), Some(v.coords))
    else (v, None)
  }

  /** A render is never repeated: straight after one, the next pass renders
      nothing, and it stays so until a payload is taken. */
  lemma NoDoubleRender(v: Viewer)
    requires Poll(v).1.Some?
    ensures Poll(Poll(v).0).1.None?
  {
  }

  /** A payload carrying the coordinates just rendered, number for number,
      does not render them again. */
  lemma SameFixNotRerendered(v: Viewer, data: string, parse: string -> Option<Float>)
    requires Poll(v).1.Some?
    requires Same(Receive(Poll(v).0, data, parse).coords, v.coords)
    ensures Poll(Receive(Poll(v).0, data, parse)).1.None?
  {
  }

  /** What the ESP side sends: the two printed numbers joined by a comma. */
  function Payload(lat: string, lon: string): string {
    lat + "," + lon
  }

  /** What a printed number looks like: non-empty, no comma, no blank at
      either end. */
  predicate Printed(text: string) {
    |text| > 0 && ',' !in text && !PyText.IsSpace(text[0]) && !PyText.IsSpace(text[|text| - 1])
  }

  /** The payload strips to itself. */
  lemma PayloadStrips(latText: string, lonText: string)
    requires Printed(latText) && Printed(lonText)
    ensures PyText.Strip(Payload(latText, lonText)) == Payload(latText, lonText)
  {
    var data := Payload(latText, lonText);
    assert data[0] == latText[0];
    assert data[|data| - 1] == lonText[|lonText| - 1];
    StripPadded([], data, [], PyText.IsSpace);
    assert [] + data + [] == data;
  }

  /** The payload holds exactly one comma. */
  lemma PayloadCommas(latText: string, lonText: string)
    requires ',' !in latText && ',' !in lonText
    ensures multiset(Payload(latText, lonText))[','] == 1
  {
    assert Payload(latText, lonText) == latText + [','] + lonText;
    assert multiset(latText)[','] == 0 && multiset(lonText)[','] == 0;
  }

  /** The payload splits into the two printed numbers. */
  lemma PayloadFields(latText: string, lonText: string)
    requires Printed(latText) && Printed(lonText)
    ensures Split(Payload(latText, lonText), ',') == [latText, lonText]
  {
    assert Payload(latText, lonText) == latText + [','] + lonText;
    SplitAfterHead(latText, ',', lonText);
    assert Split(lonText, ',') == [lonText];
  }

  /** Round trip: a "lat,lon" payload of two printed numbers that `float()`
      reads back sets `coords` to exactly those numbers. */
  lemma PayloadRoundTrip(v: Viewer, latText: string, lonText: string,
                         lat: Float, lon: Float, parse: string -> Option<Float>)
    requires Printed(latText) && Printed(lonText)
    requires parse(latText) == Some(lat) && parse(lonText) == Some(lon)
    ensures Receive(v, Payload(latText, lonText), parse) == Viewer(Coords(lat, lon), v.last, false)
  {
    PayloadStrips(latText, lonText);
    PayloadCommas(latText, lonText);
    PayloadFields(latText, lonText);
  }

  /** The comma-separated record `Codes/GPS+Bluetooth.c++` prints (lines
      41-47): latitude, longitude, speed and altitude, ended by "\r\n". */
  function BluetoothRecord(lat: string, lon: string, speed: string, altitude: string): string {
    lat + "," + lon + "," + speed + "," + altitude + "\r\n"
  }

  /** Such a record is never taken as coordinates, whatever its fields: it
      holds at least three commas. */
  lemma BluetoothRecordRejected(v: Viewer, lat: string, lon: string, speed: string, altitude: string,
                                parse: string -> Option<Float>)
    ensures Receive(v, BluetoothRecord(lat, lon, speed, altitude), parse) == v
  {
    var data := BluetoothRecord(lat, lon, speed, altitude);
    assert data == lat + [','] + lon + [','] + speed + [','] + altitude + "\r\n";
    assert multiset(data)[','] >= 3;
  }

  /** One thing happening: a payload taken by the server, or one pass of
      the map loop. */
  datatype Event = Arrived(data: string) | Tick

  /** One event: a payload only moves `coords`; a map pass renders at most
      one position, which then is `last_coords`. Without a render
      `last_coords` stays. */
  function Handle(v: Viewer, e: Event, parse: string -> Option<Float>): (h: (Viewer, seq<Coords>))
    ensures |h.1| <= 1
    ensures |h.1| == 0 ==> h.0.last == v.last
    ensures |h.1| == 1 ==> h.0.last == h.1[0]
  {
    match e
    case Arrived(data) => (Receive(v, data, parse), [])
    case Tick =>
      var p := Poll(v);
      (p.0, if p.1.Some? then [p.1.value] else [])
  }

  /** What one event renders differs from the previous `last_coords` and
      is not (0, 0). */
  lemma HandleRendersChange(v: Viewer, e: Event, parse: string -> Option<Float>)
    ensures var h := Handle(v, e, parse);
      |h.1| == 1 ==> !Same(h.1[0], v.last) && !Same(h.1[0], Origin)
  {
  }

  /** A run of events, with every rendered position in order, at most one
      per event. `last_coords` ends as the last rendered position, or as it
      was when nothing was rendered. */
  function Run(v: Viewer, events: seq<Event>, parse: string -> Option<Float>): (r: (Viewer, seq<Coords>))
    ensures |r.1| <= |events|
    ensures |r.1| == 0 ==> r.0.last == v.last
    ensures |r.1| > 0 ==> r.0.last == r.1[|r.1| - 1]
    decreases |events|
  {
    if |events| == 0 then (v, [])
    else
      var h := Handle(v, events[0], parse);
      var rest := Run(h.0, events[1..], parse);
      LastAfterStep(v.last, h.0.last, h.1, rest.0.last, rest.1);
      (rest.0, h.1 + rest.1)
  }

  /** One event followed by the rest of a run: the position remembered at
      the end is the last one rendered, whichever part rendered it, or the
      starting one when neither did. */
  lemma LastAfterStep(start: Coords, mid: Coords, first: seq<Coords>, end: Coords, rest: seq<Coords>)
    requires |first| <= 1
    requires |first| == 0 ==> mid == start
    requires |first| == 1 ==> mid == first[0]
    requires |rest| == 0 ==> end == mid
    requires |rest| > 0 ==> end == rest[|rest| - 1]
    ensures |first + rest| == 0 ==> end == start
    ensures |first + rest| > 0 ==> end == (first + rest)[|first + rest| - 1]
  {
    if |rest| == 0 {
      assert first + rest == first;
    } else {
      assert (first + rest)[|first + rest| - 1] == rest[|rest| - 1];
    }
  }

  /** Neighbours differ in `first + rest` when they differ in `rest` and the
      at most one element of `first` differs from the head of `rest`. */
  lemma NeighboursDifferCons(first: seq<Coords>, rest: seq<Coords>)
    requires |first| <= 1
    requires |first| == 1 && |rest| > 0 ==> !Same(first[0], rest[0])
    requires forall i :: 0 < i < |rest| ==> !Same(rest[i - 1], rest[i])
    ensures forall i :: 0 < i < |first + rest| ==> !Same((first + rest)[i - 1], (first + rest)[i])
  {
    var all := first + rest;
    forall i | 0 < i < |all|
      ensures !Same(all[i - 1], all[i])
    {
      if i > |first| {
        assert all[i - 1] == rest[i - 1 - |first|] && all[i] == rest[i - |first|];
      }
    }
  }

  /** Every render shows a change: the first differs from the `last_coords`
      the run started with, and each later one from the render before it. */
  lemma {:induction false} RendersAlwaysChange(v: Viewer, events: seq<Event>, parse: string -> Option<Float>)
    ensures var shown := Run(v, events, parse).1;
      && (|shown| > 0 ==> !Same(shown[0], v.last))
      && (forall i :: 0 < i < |shown| ==> !Same(shown[i - 1], shown[i]))
    decreases |events|
  {
    if |events| > 0 {
      var h := Handle(v, events[0], parse);
      RendersAlwaysChange(h.0, events[1..], parse);
      HandleRendersChange(v, events[0], parse);
      var rest := Run(h.0, events[1..], parse).1;
      assert Run(v, events, parse).1 == h.1 + rest;
      NeighboursDifferCons(h.1, rest);
      HeadOfAppend(h.1, rest);
    }
  }

  /** The head of `a + b` for an `a` of at most one element. */
  lemma HeadOfAppend(a: seq<Coords>, b: seq<Coords>)
    requires |a| <= 1
    ensures |a| == 1 ==> (a + b)[0] == a[0]
    ensures |a| == 0 ==> a + b == b
  {
  }

  /** A run of one event is that event. */
  lemma RunOne(v: Viewer, e: Event, parse: string -> Option<Float>)
    ensures Run(v, [e], parse) == Handle(v, e, parse)
  {
    var h := Handle(v, e, parse);
    assert [e][1..] == [];
    assert h.1 + [] == h.1;
  }

  /** The converse of the gate: a fresh fix gets shown. A printed payload
      that differs from the last render and is not (0, 0), followed by one
      map pass, renders exactly that fix. */
  lemma FreshFixRendered(v: Viewer, latText: string, lonText: string,
                         lat: Float, lon: Float, parse: string -> Option<Float>)
    requires Printed(latText) && Printed(lonText)
    requires parse(latText) == Some(lat) && parse(lonText) == Some(lon)
    requires !Same(Coords(lat, lon), v.last) && !Same(Coords(lat, lon), Origin)
    ensures Run(v, [Arrived(Payload(latText, lonText)), Tick], parse)
         == (Viewer(Coords(lat, lon), Coords(lat, lon), true), [Coords(lat, lon)])
  {
    var c := Coords(lat, lon);
    var events := [Arrived(Payload(latText, lonText)), Tick];
    PayloadRoundTrip(v, latText, lonText, lat, lon, parse);
    var v1 := Viewer(c, v.last, false);
    assert Handle(v, events[0], parse) == (v1, []);
    assert events[1..] == [Tick];
    RunOne(v1, Tick, parse);
    assert Poll(v1) == (Viewer(c, c, true), Some(c));
    assert Handle(v1, Tick, parse) == (Viewer(c, c, true), [c]);
    assert Run(v, events, parse) == (Viewer(c, c, true), [] + [c]);
    assert [] + [c] == [c];
  }

  /** Over any run, a fix at exactly (0, 0) is never rendered. */
  lemma {:induction false} OriginNeverRendered(v: Viewer, events: seq<Event>, parse: string -> Option<Float>)
    ensures forall i :: 0 <= i < |Run(v, events, parse).1| ==> !Same(Run(v, events, parse).1[i], Origin)
    decreases |events|
  {
    if |events| > 0 {
      var h := Handle(v, events[0], parse);
      OriginNeverRendered(h.0, events[1..], parse);
      HandleRendersChange(v, events[0], parse);
      var rest := Run(h.0, events[1..], parse).1;
      assert Run(v, events, parse).1 == h.1 + rest;
      NoOriginAppend(h.1, rest);
    }
  }

  /** Neither part holds (0, 0), so their concatenation does not. */
  lemma NoOriginAppend(a: seq<Coords>, b: seq<Coords>)
    requires forall i :: 0 <= i < |a| ==> !Same(a[i], Origin)
    requires forall i :: 0 <= i < |b| ==> !Same(b[i], Origin)
    ensures forall i :: 0 <= i < |a + b| ==> !Same((a + b)[i], Origin)
  {
    forall i | 0 <= i < |a + b|
      ensures !Same((a + b)[i], Origin)
    {
      if i >= |a| {
        assert (a + b)[i] == b[i - |a|];
      }
    }
  }

  /** Starting from the initial lists, passes of the map loop alone render
      nothing. */
  lemma {:induction false} NothingBeforeFirstPayload(n: nat, parse: string -> Option<Float>)
    ensures Run(Initial, seq(n, _ => Tick), parse).1 == []
    decreases n
  {
    if n > 0 {
      var ticks := seq(n, _ => Tick);
      assert ticks[1..] == seq(n - 1, _ => Tick);
      assert Poll(Initial) == (Initial, None);
      assert Handle(Initial, Tick, parse) == (Initial, []);
      NothingBeforeFirstPayload(n - 1, parse);
      assert [] + Run(Initial, ticks[1..], parse).1 == [];
    }
  }
}

=== FILE: distance_window.dfy ===
/** `aa.py`: the live plot of the last fifty ultrasonic distances. Each
    frame receives one chunk, strips it, splits it into lines and appends every
    line that parses to a plausible distance to a `deque` of length 50; the
    plot line is red when the newest distance is below the safe distance. The
    socket and `decode` are inputs (the decoded chunk, or `None` when `recv`
    or `decode` raised) and `float()` is a parameter. */
module DistanceWindow {
  import opened Wrappers
  import opened Seqs
  import PyText
  import opened PyFloat

  /** Line 11: `MAX_POINTS`. */
  const MaxPoints: nat := 50

  /** Line 12: `SAFE_DISTANCE` in cm. */
  const SafeDistance: int := 15

  /** Line 20: `deque([0]*MAX_POINTS, maxlen=MAX_POINTS)`. */
  const Initial: seq<Float> := seq(MaxPoints, _ => FromInt(0))

  /** Line 41: `d == 0 or d > 200`. Only a zero or a number above 200 is
      rejected: negative numbers, minus infinity and NaN all pass. */
  predicate Rejected(d: Float)
    ensures Rejected(d) <==> d.PosInf? || (d.Finite? && (d.v == 0.0 || d.v > 200.0))
  {
    Eq(d, FromInt(0)) || Gt(d, FromInt(200))
  }

  /** `distance_data.append(d)` on a full deque: the oldest value drops out
      and `d` goes last. */
  function Push(w: seq<Float>, d: Float): (w': seq<Float>)
    ensures |w| == MaxPoints ==> |w'| == MaxPoints && w' == w[1..] + [d]
  {
    LastN(w + [d], MaxPoints)
  }

  /** Lines 40-45 for one line: a line that does not parse, or parses to
      a rejected value, leaves the deque alone. */
  function Next(w: seq<Float>, line: string, parse: string -> Option<Float>): (w': seq<Float>)
    ensures |w| == MaxPoints ==> |w'| == MaxPoints
    ensures parse(line).None? || Rejected(parse(line).value) ==> w' == w
    ensures parse(line).Some? && !Rejected(parse(line).value) && |w| == MaxPoints ==>
      w' == w[1..] + [parse(line).value]
  {
    match parse(line)
    case None => w
    case Some(d) => if Rejected(d) then w else Push(w, d)
  }

  /** Lines 38-45: the inner loop. A skipped line does not stop it: it goes
      on with the next line. */
  function Ingest(w: seq<Float>, lines: seq<string>, parse: string -> Option<Float>): (w': seq<Float>)
    ensures |w| == MaxPoints ==> |w'| == MaxPoints
    decreases |lines|
  {
    if |lines| == 0 then w
    else Ingest(Next(w, lines[0], parse), lines[1..], parse)
  }

  /** The value one line contributes, if any. */
  function Kept(line: string, parse: string -> Option<Float>): (ds: seq<Float>)
    ensures |ds| <= 1
    ensures ds == [] <==> parse(line).None? || Rejected(parse(line).value)
    ensures |ds| == 1 ==> parse(line) == Some(ds[0]) && !Rejected(ds[0])
  {
    match parse(line)
    case None => []
    case Some(d) => if Rejected(d) then [] else [d]
  }

  /** One line's step is the window over what it contributes. */
  lemma NextKeepsNewest(w: seq<Float>, line: string, parse: string -> Option<Float>)
    requires |w| == MaxPoints
    ensures Next(w, line, parse) == LastN(w + Kept(line, parse), MaxPoints)
    ensures |Next(w, line, parse)| == MaxPoints
  {
    if Kept(line, parse) == [] {
      assert w + Kept(line, parse) == w;
    }
  }

  /** Reference definition: the values a sequence of lines contributes, in
      order. */
  function Accepted(lines: seq<string>, parse: string -> Option<Float>): (ds: seq<Float>)
    ensures |ds| <= |lines|
    ensures forall i :: 0 <= i < |ds| ==> !Rejected(ds[i])
    decreases |lines|
  {
    if |lines| == 0 then [] else Kept(lines[0], parse) + Accepted(lines[1..], parse)
  }

  /** The lines of one chunk: `raw_data.strip().splitlines()`, nothing when
      the stripped chunk is empty. No line holds a break, and laid end to end
      they are the stripped chunk without its break characters. A chunk
      without a boundary is one line; where it is cut is fixed by
      `LinesCutAtBreak` and `LinesCutAtCrLf`. */
  function Lines(text: string): (lines: seq<string>)
    ensures lines == [] <==> forall i :: 0 <= i < |text| ==> PyText.IsSpace(text[i])
    ensures forall k, j :: 0 <= k < |lines| && 0 <= j < |lines[k]| ==> !PyText.IsLineBreak(lines[k][j])
    ensures PyText.Concat(lines) == PyText.Unbroken(PyText.Strip(text))
    ensures |PyText.Strip(text)| > 0 && (forall j :: 0 <= j < |PyText.Strip(text)| ==> !PyText.IsLineBreak(PyText.Strip(text)[j])) ==>
      lines == [PyText.Strip(text)]
  {
    var raw := PyText.Strip(text);
    if |raw| > 0 then PyText.SplitLines(raw) else []
  }

  /** A line that does not parse, or parses to a rejected value, costs
      nothing but itself: the lines after it in the same chunk are read as
      if it had not been there, whether it ends in "\n" or in the "\r\n"
      that `client.println` sends. */
  lemma BadLineSkipped(line: string, rest: string, parse: string -> Option<Float>)
    requires forall j :: 0 <= j < |line| ==> !PyText.IsLineBreak(line[j])
    requires parse(line).None? || Rejected(parse(line).value)
    ensures Accepted(PyText.SplitLines(line + "\n" + rest), parse)
         == Accepted(PyText.SplitLines(rest), parse)
    ensures Accepted(PyText.SplitLines(line + "\r\n" + rest), parse)
         == Accepted(PyText.SplitLines(rest), parse)
  {
    PyText.SplitLinesCons(line, rest);
    var lines := PyText.SplitLines(line + "\n" + rest);
    assert lines[0] == line && lines[1..] == PyText.SplitLines(rest);
    var crlf := PyText.SplitLines(line + "\r\n" + rest);
    assert crlf[0] == line && crlf[1..] == PyText.SplitLines(rest);
  }

  /** The same for a line ended by any other single boundary character:
      `splitlines` cuts there too, so the bad line is skipped on its own. */
  lemma BadLineSkippedAtBreak(line: string, b: char, rest: string, parse: string -> Option<Float>)
    requires forall j :: 0 <= j < |line| ==> !PyText.IsLineBreak(line[j])
    requires PyText.IsLineBreak(b)
    requires b == '\r' ==> |rest| == 0 || rest[0] != '\n'
    requires parse(line).None? || Rejected(parse(line).value)
    ensures Accepted(PyText.SplitLines(line + [b] + rest), parse)
         == Accepted(PyText.SplitLines(rest), parse)
  {
    PyText.SplitLinesAtBreak(line, b, rest);
    var lines := PyText.SplitLines(line + [b] + rest);
    assert lines[0] == line && lines[1..] == PyText.SplitLines(rest);
  }

  /** A chunk is cut wherever its stripped text has a boundary: the first
      line of the chunk is the text before it, and the rest are the lines
      of what follows, each read on its own. */
  lemma LinesCutAtBreak(text: string, line: string, b: char, rest: string)
    requires PyText.Strip(text) == line + [b] + rest
    requires forall j :: 0 <= j < |line| ==> !PyText.IsLineBreak(line[j])
    requires PyText.IsLineBreak(b)
    requires b == '\r' ==> |rest| == 0 || rest[0] != '\n'
    ensures Lines(text) == [line] + PyText.SplitLines(rest)
  {
    PyText.SplitLinesAtBreak(line, b, rest);
  }

  /** The same at the "\r\n" that ends every line `client.println` sends. */
  lemma LinesCutAtCrLf(text: string, line: string, rest: string)
    requires PyText.Strip(text) == line + "\r\n" + rest
    requires forall j :: 0 <= j < |line| ==> !PyText.IsLineBreak(line[j])
    ensures Lines(text) == [line] + PyText.SplitLines(rest)
  {
    PyText.SplitLinesCons(line, rest);
  }

  /** The inner loop keeps exactly the newest fifty of the old values
      followed by the accepted ones, in arrival order. */
  lemma {:induction false} IngestKeepsNewest(w: seq<Float>, lines: seq<string>, parse: string -> Option<Float>)
    requires |w| == MaxPoints
    ensures Ingest(w, lines, parse) == LastN(w + Accepted(lines, parse), MaxPoints)
    decreases |lines|
  {
    if |lines| == 0 {
      assert w + [] == w;
    } else {
      var first := Kept(lines[0], parse);
      var rest := Accepted(lines[1..], parse);
      var w1 := Next(w, lines[0], parse);
      NextKeepsNewest(w, lines[0], parse);
      IngestKeepsNewest(w1, lines[1..], parse);
      assert Ingest(w, lines, parse) == Ingest(w1, lines[1..], parse);
      LastNAppend(w + first, rest, MaxPoints);
      assert Accepted(lines, parse) == first + rest;
      AppendAssoc(w, first, rest);
    }
  }

  /** One call of `update` on the deque. A failed `recv` or `decode` leaves
      it alone; otherwise the deque keeps its length and ends with the newest
      of the old values followed by every accepted value of this chunk. */
  function Update(w: seq<Float>, raw: Option<string>, parse: string -> Option<Float>): (w': seq<Float>)
    requires |w| == MaxPoints
    ensures |w'| == MaxPoints
    ensures raw.None? ==> w' == w
    ensures raw.Some? ==> w' == LastN(w + Accepted(Lines(raw.value), parse), MaxPoints)
  {
    match raw
    case None => w
    case Some(text) =>
      IngestKeepsNewest(w, Lines(text), parse);
      Ingest(w, Lines(text), parse)
  }

  /** Each chunk is split on its own: two frames are the same as one window
      over the values of both chunks, and a line cut across the two chunks is
      read as two separate lines, not re-joined. */
  lemma UpdatesCompose(w: seq<Float>, a: string, b: string, parse: string -> Option<Float>)
    requires |w| == MaxPoints
    ensures Update(Update(w, Some(a), parse), Some(b), parse)
         == LastN(w + Accepted(Lines(a), parse) + Accepted(Lines(b), parse), MaxPoints)
  {
    LastNAppend(w + Accepted(Lines(a), parse), Accepted(Lines(b), parse), MaxPoints);
  }

  datatype Colour = Red | Blue

  /** Lines 50-53: the colour of the plot line for the deque's newest value.
      Under IEEE comparison it is red for a number below 15 and for minus
      infinity, and blue for everything else, NaN and plus infinity
      included. */
  function LineColour(w: seq<Float>): (c: Colour)
    requires |w| > 0
    ensures c == Red <==> w[|w| - 1].NegInf? || (w[|w| - 1].Finite? && w[|w| - 1].v < 15.0)
  {
    if Lt(w[|w| - 1], FromInt(SafeDistance)) then Red else Blue
  }

  /** After a frame the line is red exactly when the newest accepted value
      of the chunk is a number below 15 or minus infinity; when the chunk
      brought nothing the colour is the one the old newest value gave. */
  lemma ColourFollowsNewest(w: seq<Float>, raw: Option<string>, parse: string -> Option<Float>)
    requires |w| == MaxPoints
    ensures var w' := Update(w, raw, parse);
      var ds := if raw.Some? then Accepted(Lines(raw.value), parse) else [];
      && (|ds| > 0 ==>
            (LineColour(w') == Red <==>
               ds[|ds| - 1].NegInf? || (ds[|ds| - 1].Finite? && ds[|ds| - 1].v < 15.0)))
      && (|ds| == 0 ==> LineColour(w') == LineColour(w))
  {
    var ds := if raw.Some? then Accepted(Lines(raw.value), parse) else [];
    var w' := Update(w, raw, parse);
    if raw.None? {
      assert w + ds == w;
    }
    assert w' == LastN(w + ds, MaxPoints);
    ColourOfWindow(w, ds, w');
  }

  /** The colour of the window `w'` over `w + ds` follows the newest value
      of `ds`, or of `w` when `ds` is empty. */
  lemma ColourOfWindow(w: seq<Float>, ds: seq<Float>, w': seq<Float>)
    requires |w| == MaxPoints
    requires w' == LastN(w + ds, MaxPoints)
    ensures |w'| == MaxPoints
    ensures |ds| > 0 ==>
      (LineColour(w') == Red <==> ds[|ds| - 1].NegInf? || (ds[|ds| - 1].Finite? && ds[|ds| - 1].v < 15.0))
    ensures |ds| == 0 ==> LineColour(w') == LineColour(w)
  {
    assert w'[|w'| - 1] == (w + ds)[|w + ds| - 1];
    if |ds| == 0 {
      assert w + ds == w;
    }
  }
}

=== FILE: esp_hotspot.dfy ===
/** `Codes/esp_hotspot.c++`: the ESP8266 `loop()`. Characters from the
    Arduino are assembled into `distanceStr`; a newline ends a line, which is
    trimmed and, when not empty, copied into the 10-byte `distanceChar`
    buffer with the time it arrived. A reading is sent to the TCP client at
    most once, and only after 50 ms measured with wrapping 32-bit `millis()`
    arithmetic. The serial port, the client and `millis()` are inputs: the
    characters available with the clock reading at which each was read,
    whether a client is connected, and the clock reading at the send check. */
module EspHotspot {
  import opened Wrappers
  import opened Bytes
  import opened Seqs

  /** C `isspace` in the "C" locale, which `String::trim` uses. */
  predicate IsCSpace(c: byte) {
    c == 32 || 9 <= c <= 13
  }

  /** `String::trim()`: the slice of `s` between its leading and trailing
      blanks; empty exactly when `s` is all blanks, so a line of only "\r"
      or spaces trims to nothing. */
  function Trim(s: seq<byte>): (r: seq<byte>)
    ensures LeadingCount(s, IsCSpace) + |r| <= |s|
    ensures r == s[LeadingCount(s, IsCSpace)..LeadingCount(s, IsCSpace) + |r|]
    ensures forall i :: LeadingCount(s, IsCSpace) + |r| <= i < |s| ==> IsCSpace(s[i])
    ensures |r| > 0 ==> !IsCSpace(r[0]) && !IsCSpace(r[|r| - 1])
    ensures r == [] <==> forall i :: 0 <= i < |s| ==> IsCSpace(s[i])
  {
    Strip(s, IsCSpace)
  }

  /** Line 23: `char distanceChar[10]`. */
  const BufferSize: nat := 10

  /** Line 19: `const long interval = 50`. */
  const Interval: Millis := 50

  /** The `unsigned long` that `millis()` returns. */
  newtype Millis = n: int | 0 <= n < 0x1_0000_0000

  /** Loop state: `distanceStr`, the C string held in `distanceChar` (the
      bytes before its terminating NUL), and `previousMillis`. */
  datatype Esp = Esp(pending: seq<byte>, reading: seq<byte>, previousMillis: Millis)

  /** The globals before the first `loop()`: an empty string, an all-zero
      buffer (so an empty C string) and 0. */
  const Initial: Esp := Esp([], [], 0)

  predicate NoLineEnd(s: seq<byte>) {
    LF !in s && CR !in s
  }

  /** `s.toCharArray(distanceChar, 10)` read back as a C string: the longest
      NUL-free prefix of `s` that fits in nine bytes, the tenth byte being the
      terminator. */
  function ToCharArray(s: seq<byte>): (r: seq<byte>)
    ensures |r| <= |s| && |r| <= BufferSize - 1
    ensures r == s[..|r|] && 0 !in r
    ensures |r| < |s| && |r| < BufferSize - 1 ==> s[|r|] == 0
  {
    var n := if |s| < BufferSize - 1 then |s| else BufferSize - 1;
    var copied := s[..n];
    if 0 in copied then copied[..IndexOf(copied, 0)] else copied
  }

  /** Lines 49-60 for one character `c` read at time `now`. A newline
      always empties `distanceStr`; when the trimmed line is not empty it
      replaces the buffered reading, sent or not, and restarts the interval;
      a blank line leaves both alone. A carriage return is dropped and any
      other byte is appended, so `distanceStr` never holds a line end. */
  function ReadChar(e: Esp, c: byte, now: Millis): (e': Esp)
    ensures NoLineEnd(e.pending) ==> NoLineEnd(e'.pending)
    ensures c == LF ==> e'.pending == []
    ensures c == LF && Trim(e.pending) == [] ==>
      e'.reading == e.reading && e'.previousMillis == e.previousMillis
    ensures c == LF && Trim(e.pending) != [] ==>
      e'.reading == ToCharArray(Trim(e.pending)) && e'.previousMillis == now
    ensures c == CR ==> e' == e
    ensures c != LF && c != CR ==> e' == e.(pending := e.pending + [c])
  {
    if c == LF then
      var line := Trim(e.pending);
      if |line| > 0 then Esp([], ToCharArray(line), now)
      else e.(pending := [])
    else if c != CR then e.(pending := e.pending + [c])
    else e
  }

  /** `currentMillis - previousMillis` on `unsigned long`: the difference
      modulo 2^32. */
  function WrapSub(now: Millis, previous: Millis): (d: Millis)
    ensures previous <= now ==> d as int == now as int - previous as int
    ensures now < previous ==> d as int == now as int - previous as int + 0x1_0000_0000
    ensures (previous as int + d as int) % 0x1_0000_0000 == now as int
  {
    ((now as int - previous as int) % 0x1_0000_0000) as Millis
  }

  /** Lines 64-71: a reading is sent when a client is connected, the buffer
      holds a non-empty C string and the wrapped difference has reached the
      interval. Sending prints the C string with "\r\n", empties the buffer
      and restarts the interval; otherwise nothing changes. */
  function Gate(e: Esp, connected: bool, now: Millis): (r: (Esp, Option<seq<byte>>))
    ensures r.1.Some? ==> connected && |e.reading| > 0
    ensures r.1.Some? ==> r.1.value == e.reading + [CR, LF] && r.0 == Esp(e.pending, [], now)
    ensures r.1.None? ==> r.0 == e
  {
    if connected && |e.reading| > 0 && WrapSub(now, e.previousMillis) >= Interval then
      (e.(reading := [], previousMillis := now), Some(e.reading + [CR, LF]))
    else (e, None)
  }

  /** The reading of `millis()` at `t` milliseconds since boot. */
  function Clock(t: nat): Millis {
    (t % 0x1_0000_0000) as Millis
  }

  /** The wrap of `millis()` after about 49.7 days does not disturb the
      gate: whenever less than 2^32 ms really passed between the stored time
      and now, the reading is sent exactly when a client is connected, there
      is a reading, and at least 50 ms really passed. */
  lemma {:induction false} GateMeasuresTrueElapsed(e: Esp, connected: bool, before: nat, after: nat)
    requires before <= after < before + 0x1_0000_0000
    requires e.previousMillis == Clock(before)
    ensures Gate(e, connected, Clock(after)).1.Some?
        <==> connected && |e.reading| > 0 && after - before >= 50
  {
    var d := after - before;
    var q := before / 0x1_0000_0000;
    var rb := before % 0x1_0000_0000;
    assert before == q * 0x1_0000_0000 + rb;
    if rb + d < 0x1_0000_0000 {
      assert after % 0x1_0000_0000 == rb + d;
    } else {
      assert after == (q + 1) * 0x1_0000_0000 + (rb + d - 0x1_0000_0000);
      assert after % 0x1_0000_0000 == rb + d - 0x1_0000_0000;
    }
    assert WrapSub(Clock(after), Clock(before)) as int == d;
  }

  /** One byte from `unoSerial` and the `millis()` value when it was read. */
  datatype Arrival = Arrival(c: byte, at: Millis)

  /** The bytes of `arrivals` that reach `distanceStr` when none is a
      newline: every byte but the carriage returns. */
  function Appended(arrivals: seq<Arrival>): seq<byte> {
    if |arrivals| == 0 then []
    else (if arrivals[0].c == CR then [] else [arrivals[0].c]) + Appended(arrivals[1..])
  }

  /** The `while (unoSerial.available())` loop. Line ends never enter
      `distanceStr`, and the buffer keeps its shape. Without a newline only
      `distanceStr` grows, by exactly the bytes other than "\r"; the buffer
      and the time are left alone. */
  function ReadAll(e: Esp, arrivals: seq<Arrival>): (r: Esp)
    ensures NoLineEnd(e.pending) ==> NoLineEnd(r.pending)
    ensures |e.reading| <= BufferSize - 1 && 0 !in e.reading ==>
      |r.reading| <= BufferSize - 1 && 0 !in r.reading
    ensures (forall i :: 0 <= i < |arrivals| ==> arrivals[i].c != LF) ==>
      r == e.(pending := e.pending + Appended(arrivals))
    decreases |arrivals|
  {
    if |arrivals| == 0 then
      assert e.pending + [] == e.pending;
      e
    else
      var e1 := ReadChar(e, arrivals[0].c, arrivals[0].at);
      var r := ReadAll(e1, arrivals[1..]);
      AppendAssoc(e.pending, if arrivals[0].c == CR then [] else [arrivals[0].c], Appended(arrivals[1..]));
      r
  }

  /** One call of `loop()`: read what is available, then the send check.
      What goes out is a non-empty C string followed by "\r\n", at most
      nine bytes and no NUL before it; a loop that read no newline can only
      send the reading that was already buffered. */
  function Loop(e: Esp, connected: bool, arrivals: seq<Arrival>, now: Millis): (r: (Esp, Option<seq<byte>>))
    ensures r.1.Some? ==> connected && |r.1.value| >= 3 && r.1.value[|r.1.value| - 2..] == [CR, LF]
    ensures Valid(e) ==> Valid(r.0)
    ensures Valid(e) && r.1.Some? ==>
      |r.1.value| <= BufferSize + 1 && 0 !in r.1.value[..|r.1.value| - 2]
    ensures (forall i :: 0 <= i < |arrivals| ==> arrivals[i].c != LF) && r.1.Some? ==>
      r.1.value == e.reading + [CR, LF]
  {
    var read := ReadAll(e, arrivals);
    var r := Gate(read, connected, now);
    if r.1.Some? then
      assert r.1.value[..|r.1.value| - 2] == read.reading;
      r
    else r
  }

  /** Without a newline nothing can enter an empty buffer, so nothing is
      sent: neither before the first line is complete, nor a second time
      after a send until a new non-blank line arrives. */
  lemma {:induction false} NoLineNoReading(e: Esp, arrivals: seq<Arrival>)
    requires e.reading == []
    requires forall i :: 0 <= i < |arrivals| ==> arrivals[i].c != LF
    ensures ReadAll(e, arrivals).reading == []
    decreases |arrivals|
  {
    if |arrivals| > 0 {
      var e1 := ReadChar(e, arrivals[0].c, arrivals[0].at);
      assert e1.reading == [];
      NoLineNoReading(e1, arrivals[1..]);
    }
  }

  /** The lines that `arrivals` completes, read on from the partial line
      `pending`, are all blank: at every newline, the bytes gathered since the
      previous one (carriage returns aside) are C blanks. The bytes after the
      last newline are not a line yet and may be anything. */
  predicate BlankLines(pending: seq<byte>, arrivals: seq<Arrival>)
    decreases |arrivals|
  {
    if |arrivals| == 0 then true
    else if arrivals[0].c == LF then
      (forall i :: 0 <= i < |pending| ==> IsCSpace(pending[i])) && BlankLines([], arrivals[1..])
    else if arrivals[0].c == CR then BlankLines(pending, arrivals[1..])
    else BlankLines(pending + [arrivals[0].c], arrivals[1..])
  }

  /** Blank lines do not touch the buffer or the time (lines 51-52): only a
      line that trims to something replaces the reading. */
  lemma {:induction false} BlankLinesKeepReading(e: Esp, arrivals: seq<Arrival>)
    requires BlankLines(e.pending, arrivals)
    ensures ReadAll(e, arrivals).reading == e.reading
    ensures ReadAll(e, arrivals).previousMillis == e.previousMillis
    decreases |arrivals|
  {
    if |arrivals| > 0 {
      BlankLinesKeepReading(ReadChar(e, arrivals[0].c, arrivals[0].at), arrivals[1..]);
    }
  }

  /** Splitting the input between two loops: the lines of the whole input
      are blank exactly when those of the first part are, and those of the
      second part, read on from where the first left `distanceStr`, are. */
  lemma {:induction false} BlankLinesSplit(e: Esp, a: seq<Arrival>, b: seq<Arrival>)
    ensures BlankLines(e.pending, a + b)
        <==> BlankLines(e.pending, a) && BlankLines(ReadAll(e, a).pending, b)
    decreases |a|
  {
    if |a| == 0 {
      assert a + b == b;
    } else {
      assert (a + b)[0] == a[0];
      assert (a + b)[1..] == a[1..] + b;
      BlankLinesSplit(ReadChar(e, a[0].c, a[0].at), a[1..], b);
    }
  }

  /** One call of `loop()`: whether a client is connected, the bytes the
      Arduino sent since the last call, and `millis()` at the send check. */
  datatype Call = Call(connected: bool, arrivals: seq<Arrival>, now: Millis)

  /** Every byte read over a run of calls, in order. */
  function Arrivals(calls: seq<Call>): seq<Arrival>
    decreases |calls|
  {
    if |calls| == 0 then [] else calls[0].arrivals + Arrivals(calls[1..])
  }

  /** `loop()` called once per element of `calls`: the final state and
      what was sent, in order, at most one message per call. */
  function Loops(e: Esp, calls: seq<Call>): (r: (Esp, seq<seq<byte>>))
    ensures |r.1| <= |calls|
    ensures Valid(e) ==> Valid(r.0)
    ensures forall k :: 0 <= k < |r.1| ==> |r.1[k]| >= 3 && r.1[k][|r.1[k]| - 2..] == [CR, LF]
    decreases |calls|
  {
    if |calls| == 0 then (e, [])
    else
      var l := Loop(e, calls[0].connected, calls[0].arrivals, calls[0].now);
      var rest := Loops(l.0, calls[1..]);
      ((rest.0, (if l.1.Some? then [l.1.value] else []) + rest.1))
  }

  /** With an empty buffer, calls that complete no line that trims to
      something send nothing, however many there are and whatever the
      client and the clock do, and leave the buffer empty. */
  lemma {:induction false} QuietLoopsSendNothing(e: Esp, calls: seq<Call>)
    requires e.reading == []
    requires BlankLines(e.pending, Arrivals(calls))
    ensures Loops(e, calls).1 == []
    ensures Loops(e, calls).0.reading == []
    decreases |calls|
  {
    if |calls| > 0 {
      var a := calls[0].arrivals;
      BlankLinesSplit(e, a, Arrivals(calls[1..]));
      BlankLinesKeepReading(e, a);
      var read := ReadAll(e, a);
      assert Loop(e, calls[0].connected, a, calls[0].now) == (read, None);
      QuietLoopsSendNothing(read, calls[1..]);
      assert [] + Loops(read, calls[1..]).1 == [];
    }
  }

  /** Nothing is sent before the first line that trims to something has
      been completed: the zeroed global buffer is an empty C string. */
  lemma NothingBeforeFirstLine(calls: seq<Call>)
    requires BlankLines([], Arrivals(calls))
    ensures Loops(Initial, calls).1 == []
  {
    QuietLoopsSendNothing(Initial, calls);
  }

  /** Each reading is sent at most once: after a loop that sent, the calls
      that follow send nothing until one completes a line that trims to
      something. */
  lemma SentAtMostOnce(e: Esp, connected: bool, arrivals: seq<Arrival>, now: Millis, calls: seq<Call>)
    requires Loop(e, connected, arrivals, now).1.Some?
    requires BlankLines(Loop(e, connected, arrivals, now).0.pending, Arrivals(calls))
    ensures Loops(Loop(e, connected, arrivals, now).0, calls).1 == []
  {
    QuietLoopsSendNothing(Loop(e, connected, arrivals, now).0, calls);
  }

  /** The buffer after any number of loops: never more than nine bytes,
      never a NUL inside, and `distanceStr` never holds a line end. */
  ghost predicate Valid(e: Esp) {
    NoLineEnd(e.pending) && |e.reading| <= BufferSize - 1 && 0 !in e.reading
  }

  lemma {:induction false} LoopKeepsValid(e: Esp, connected: bool, arrivals: seq<Arrival>, now: Millis)
    requires Valid(e)
    ensures Valid(ReadAll(e, arrivals))
    ensures Valid(Loop(e, connected, arrivals, now).0)
    decreases |arrivals|
  {
    if |arrivals| > 0 {
      LoopKeepsValid(ReadChar(e, arrivals[0].c, arrivals[0].at), connected, arrivals[1..], now);
    }
  }
}

=== FILE: gps_assembler.dfy ===
/** `SVmap_GPS.py`: the serial reader thread `read_gps`, one line per step,
    and the `/location` response. Three kinds of line fill pending latitude,
    longitude and satellite fields; a dashed separator line commits the
    pending fix to the history when latitude and longitude are both present,
    and clears the pending fields. The serial port and the clock are inputs
    (the decoded line, and the `time.time()` value a commit would read);
    `float()`, `int()`, `haversine` and the speed and distance arithmetic are
    parameters. */
module GpsAssembler {
  import opened Wrappers
  import opened Seqs
  import PyText
  import opened PyFloat

  const LatitudeTag: string := "Latitude:"
  const LongitudeTag: string := "Longitude:"
  const SatellitesTag: string := "Satellites in use:"
  /** Line 38: 27 dashes. */
  const Separator: string := "---------------------------"

  datatype Fix = Fix(lat: Float, lon: Float)

  /** The thread's locals `lat`, `lon`, `satellites`; `None` is Python's None. */
  datatype Pending = Pending(lat: Option<Float>, lon: Option<Float>, satellites: Option<int>)

  const Cleared: Pending := Pending(None, None, None)

  /** The values of `latest_data`. */
  datatype Latest = Latest(lat: Float, lon: Float, speed: Float, distance: Float, satellites: int)

  /** Reader state: the pending fields, `gps_history`, `latest_data` and
      `last_time`. */
  datatype Gps = Gps(pending: Pending, history: seq<Fix>, latest: Latest, lastTime: Option<real>)

  /** Lines 12-14 and 27. */
  const Initial: Gps :=
    Gps(Cleared, [], Latest(FromInt(0), FromInt(0), FromInt(0), FromInt(0), 0), None)

  /** `float()` and `int()`; `None` means the call raised. */
  datatype Parsers = Parsers(toFloat: string -> Option<Float>, toInt: string -> Option<int>)

  /** The floating-point work of a commit, left abstract: `haversine`
      (`None` when it raises, as `math.sqrt` of a negative rounding residue
      does), `(distance / dt) * 3.6` for a non-zero `dt`, and the `+=` on the
      accumulated distance. */
  datatype Odometry = Odometry(haversine: (Fix, Fix) -> Option<Float>,
                               rate: (Float, real) -> Float,
                               add: (Float, Float) -> Float)

  /** `line.split(":")[1].strip()`: the text between the first and second
      colon (or the end of the line), without blanks at either end. It never
      holds a colon. */
  function Field(line: string): (f: string)
    requires ':' in line
    ensures ':' !in f
    ensures var after := line[IndexOf(line, ':') + 1..];
      f == PyText.Strip(if ':' in after then after[..IndexOf(after, ':')] else after)
  {
    var parts := Split(line, ':');
    assert multiset(line)[':'] > 0;
    var after := line[IndexOf(line, ':') + 1..];
    assert parts == [line[..IndexOf(line, ':')]] + Split(after, ':');
    assert parts[1] == (if ':' in after then after[..IndexOf(after, ':')] else after);
    var f := PyText.Strip(parts[1]);
    assert ':' !in parts[1];
    assert forall i :: 0 <= i < |f| ==> f[i] in parts[1];
    f
  }

  /** Line 59: `satellites if satellites else 0`, so `None` and 0 both give 0. */
  function Reported(satellites: Option<int>): (n: int)
    ensures n == 0 <==> satellites.None? || satellites.value == 0
    ensures n != 0 ==> satellites == Some(n)
  {
    if satellites.Some? && satellites.value != 0 then satellites.value else 0
  }

  /** Line 48: `now - last_time if last_time else 1`; a missing or zero
      `last_time` is falsy. */
  function Elapsed(lastTime: Option<real>, now: real): (dt: real)
    ensures lastTime.None? || lastTime.value == 0.0 ==> dt == 1.0
    ensures lastTime.Some? && lastTime.value != 0.0 ==> lastTime.value + dt == now
    ensures dt == 0.0 <==> lastTime.Some? && lastTime.value != 0.0 && now == lastTime.value
  {
    if lastTime.Some? && lastTime.value != 0.0 then now - lastTime.value else 1.0
  }

  /** Whether lines 41-52 raise for this fix: only with an earlier fix, when
      `haversine` raises or when `distance/dt` divides by zero. */
  predicate Raises(g: Gps, fix: Fix, now: real, odo: Odometry)
    ensures |g.history| == 0 ==> !Raises(g, fix, now, odo)
    ensures Raises(g, fix, now, odo) <==>
      && |g.history| > 0
      && (|| odo.haversine(g.history[|g.history| - 1], fix).None?
          || (g.lastTime.Some? && g.lastTime.value != 0.0 && now == g.lastTime.value))
  {
    |g.history| > 0
    && (odo.haversine(g.history[|g.history| - 1], fix).None? || Elapsed(g.lastTime, now) == 0.0)
  }

  /** Lines 41-61 when nothing raises: the fix goes last into the history,
      `latest_data` takes its coordinates, the reported satellites and a new
      speed, and the clock reading becomes `last_time`. The very first fix
      resets the distance and has speed 0. */
  function Commit(g: Gps, fix: Fix, now: real, odo: Odometry): (g': Gps)
    requires !Raises(g, fix, now, odo)
    ensures g'.history == g.history + [fix]
    ensures g'.latest.lat == fix.lat && g'.latest.lon == fix.lon
    ensures g'.latest.satellites == Reported(g.pending.satellites)
    ensures g'.lastTime == Some(now) && g'.pending == g.pending
    ensures |g.history| == 0 ==> g'.latest.speed == FromInt(0) && g'.latest.distance == FromInt(0)
  {
    var sats := Reported(g.pending.satellites);
    if |g.history| == 0 then
      Gps(g.pending, [fix], Latest(fix.lat, fix.lon, FromInt(0), FromInt(0), sats), Some(now))
    else
      var distance := odo.haversine(g.history[|g.history| - 1], fix).value;
      var speed := odo.rate(distance, Elapsed(g.lastTime, now));
      Gps(g.pending, g.history + [fix],
          Latest(fix.lat, fix.lon, speed, odo.add(g.latest.distance, distance), sats),
          Some(now))
  }

  /** A line's tag, by the `startswith` chain of lines 32-38 (first match
      wins), on the stripped line. Every tag ends in a colon, so a tagged
      line has a field to read. */
  datatype Kind = LatitudeLine | LongitudeLine | SatellitesLine | SeparatorLine | OtherLine

  function KindOf(line: string): (k: Kind)
    ensures k.LatitudeLine? || k.LongitudeLine? || k.SatellitesLine? ==> ':' in line
  {
    if PyText.StartsWith(line, LatitudeTag) then
      assert line[|LatitudeTag| - 1] == LatitudeTag[|LatitudeTag| - 1];
      LatitudeLine
    else if PyText.StartsWith(line, LongitudeTag) then
      assert line[|LongitudeTag| - 1] == LongitudeTag[|LongitudeTag| - 1];
      LongitudeLine
    else if PyText.StartsWith(line, SatellitesTag) then
      assert line[|SatellitesTag| - 1] == SatellitesTag[|SatellitesTag| - 1];
      SatellitesLine
    else if PyText.StartsWith(line, Separator) then SeparatorLine
    else OtherLine
  }

  /** One pass of the `while True` loop body for one line read from the
      port. A tagged line sets only its own pending field, and only when its
      number parses (the exception is caught before the assignment); a later
      line of the same kind overwrites it. A separator commits when both
      coordinates are pending and then clears all three fields, unless the
      commit raised, in which case the handler skips the reset and nothing
      changes. Any other line changes nothing. */
  function Step(g: Gps, raw: string, now: real, parse: Parsers, odo: Odometry): (g': Gps)
    ensures KindOf(PyText.Strip(raw)) != SeparatorLine ==>
      g'.history == g.history && g'.latest == g.latest && g'.lastTime == g.lastTime
    ensures var line := PyText.Strip(raw);
      KindOf(line) == LatitudeLine ==>
        && g'.pending.lon == g.pending.lon && g'.pending.satellites == g.pending.satellites
        && g'.pending.lat == (if parse.toFloat(Field(line)).Some? then parse.toFloat(Field(line)) else g.pending.lat)
    ensures var line := PyText.Strip(raw);
      KindOf(line) == LongitudeLine ==>
        && g'.pending.lat == g.pending.lat && g'.pending.satellites == g.pending.satellites
        && g'.pending.lon == (if parse.toFloat(Field(line)).Some? then parse.toFloat(Field(line)) else g.pending.lon)
    ensures var line := PyText.Strip(raw);
      KindOf(line) == SatellitesLine ==>
        && g'.pending.lat == g.pending.lat && g'.pending.lon == g.pending.lon
        && g'.pending.satellites == (if parse.toInt(Field(line)).Some? then parse.toInt(Field(line)) else g.pending.satellites)
    ensures KindOf(PyText.Strip(raw)) == SeparatorLine ==>
      if g.pending.lat.None? || g.pending.lon.None? then
        g' == g.(pending := Cleared)
      else
        var fix := Fix(g.pending.lat.value, g.pending.lon.value);
        if Raises(g, fix, now, odo) then g' == g
        else g' == Commit(g, fix, now, odo).(pending := Cleared)
    ensures KindOf(PyText.Strip(raw)) == OtherLine ==> g' == g
  {
    var line := PyText.Strip(raw);
    match KindOf(line)
    case LatitudeLine =>
      (match parse.toFloat(Field(line))
       case None => g
       case Some(v) => g.(pending := g.pending.(lat := Some(v))))
    case LongitudeLine =>
      (match parse.toFloat(Field(line))
       case None => g
       case Some(v) => g.(pending := g.pending.(lon := Some(v))))
    case SatellitesLine =>
      (match parse.toInt(Field(line))
       case None => g
       case Some(n) => g.(pending := g.pending.(satellites := Some(n))))
    case SeparatorLine =>
      if g.pending.lat.None? || g.pending.lon.None? then g.(pending := Cleared)
      else
        var fix := Fix(g.pending.lat.value, g.pending.lon.value);
        if Raises(g, fix, now, odo) then g
        else Commit(g, fix, now, odo).(pending := Cleared)
    case OtherLine => g
  }

  /** What a separator does, stated on its own: the history grows by at most
      one fix, which then is the pending pair and is mirrored into
      `latest_data`; without both coordinates neither the history nor
      `latest_data` moves; and afterwards the pending fields are clear
      unless the commit raised and left everything as it was. */
  lemma SeparatorCommitsAtMostOnce(g: Gps, raw: string, now: real, parse: Parsers, odo: Odometry)
    requires KindOf(PyText.Strip(raw)) == SeparatorLine
    ensures var g' := Step(g, raw, now, parse, odo);
      && (g'.pending == Cleared || g' == g)
      && (g'.history == g.history || g'.history == g.history + [g'.history[|g'.history| - 1]])
      && (g'.history != g.history ==>
            && g.pending.lat.Some? && g.pending.lon.Some?
            && g'.history[|g'.history| - 1] == Fix(g.pending.lat.value, g.pending.lon.value)
            && g'.latest.lat == g.pending.lat.value && g'.latest.lon == g.pending.lon.value
            && g'.latest.satellites == Reported(g.pending.satellites))
      && (g.pending.lat.None? || g.pending.lon.None? ==>
            g'.history == g.history && g'.latest == g.latest && g'.pending == Cleared)
  {
  }

  /** No line of `lines` is a separator. */
  predicate NoSeparator(lines: seq<string>) {
    forall i :: 0 <= i < |lines| ==> KindOf(PyText.Strip(lines[i])) != SeparatorLine
  }

  /** Any number of lines, each with the clock reading a commit would take.
      The history is only ever extended, never rewritten, by at most one fix
      per line; lines that are not separators add nothing. */
  function Run(g: Gps, lines: seq<string>, times: seq<real>, parse: Parsers, odo: Odometry): (g': Gps)
    requires |times| == |lines|
    ensures |g.history| <= |g'.history| <= |g.history| + |lines|
    ensures g'.history[..|g.history|] == g.history
    ensures NoSeparator(lines) ==> g'.history == g.history
    decreases |lines|
  {
    if |lines| == 0 then g
    else
      var g1 := Step(g, lines[0], times[0], parse, odo);
      StepExtends(g, lines[0], times[0], parse, odo);
      var r := Run(g1, lines[1..], times[1..], parse, odo);
      PrefixOfPrefix(g.history, g1.history, r.history);
      assert NoSeparator(lines) ==> NoSeparator(lines[1..]) && g1.history == g.history;
      r
  }

  /** One line adds at most one fix at the end of the history, and only a
      separator can add one. */
  lemma StepExtends(g: Gps, raw: string, now: real, parse: Parsers, odo: Odometry)
    ensures var h := Step(g, raw, now, parse, odo).history;
      && |g.history| <= |h| <= |g.history| + 1
      && h[..|g.history|] == g.history
      && (KindOf(PyText.Strip(raw)) != SeparatorLine ==> h == g.history)
  {
    var h := Step(g, raw, now, parse, odo).history;
    assert h == g.history || h[..|g.history|] == g.history;
  }

  /** A JSON value of the `/location` response. */
  datatype Json = Number(f: Float) | Integer(i: int) | Path(fixes: seq<Fix>)

  /** `latest_data` as the dictionary it is. */
  function LatestDict(l: Latest): map<string, Json> {
    map["lat" := Number(l.lat), "lon" := Number(l.lon), "speed" := Number(l.speed),
        "distance" := Number(l.distance), "satellites" := Integer(l.satellites)]
  }

  /** Line 79: `latest_data | {'path': gps_history}`: every key of
      `latest_data` with its value, plus `path` holding the whole history. */
  function Location(g: Gps): (r: map<string, Json>)
    ensures r.Keys == LatestDict(g.latest).Keys + {"path"}
    ensures forall k :: k in LatestDict(g.latest) ==> r[k] == LatestDict(g.latest)[k]
    ensures r["path"] == Path(g.history)
  {
    LatestDict(g.latest) + map["path" := Path(g.history)]
  }
}

=== FILE: gps_block.dfy ===
/** The four-line block `Codes/GPS.c++` prints for every location update
    (lines 23-29), as the serial reader of `SVmap_GPS.py` receives it, and
    the round trip through that reader: one printed block adds exactly one
    fix to the history. How the firmware formats a number is a parameter
    (the printed text), related to the reader's `float()`/`int()` only by
    the assumption that parsing the printed text gives the value back. */
module GpsBlock {
  import opened Wrappers
  import opened Seqs
  import PyText
  import opened PyFloat
  import opened GpsAssembler

  /** `Serial.println` ends every line with "\r\n". */
  const LineEnd: string := "\r\n"

  /** The lines of one block: `print(tag)` with the tag's colon and a
      space, `println(value)`, and the dashed separator. */
  function Block(lat: string, lon: string, satellites: string): seq<string> {
    [ LatitudeTag + " " + lat + LineEnd,
      LongitudeTag + " " + lon + LineEnd,
      SatellitesTag + " " + satellites + LineEnd,
      Separator + LineEnd ]
  }

  /** What a printed number looks like: non-empty, no blank at either end,
      no colon. */
  predicate Printed(text: string) {
    |text| > 0 && !PyText.IsSpace(text[0]) && !PyText.IsSpace(text[|text| - 1]) && ':' !in text
  }

  lemma LineEndIsBlank()
    ensures forall i :: 0 <= i < |LineEnd| ==> PyText.IsSpace(LineEnd[i])
  {
  }

  /** A tag is a non-blank name followed by its only colon. */
  predicate TagShape(tag: string) {
    |tag| > 1 && !PyText.IsSpace(tag[0]) && tag[|tag| - 1] == ':' && ':' !in tag[..|tag| - 1]
  }

  lemma TagsShaped()
    ensures TagShape(LatitudeTag) && TagShape(LongitudeTag) && TagShape(SatellitesTag)
  {
  }

  /** A printed line strips to itself without the line end. */
  lemma StripLineEnd(core: string)
    requires |core| > 0 && !PyText.IsSpace(core[0]) && !PyText.IsSpace(core[|core| - 1])
    ensures PyText.Strip(core + LineEnd) == core
  {
    LineEndIsBlank();
    StripPadded([], core, LineEnd, PyText.IsSpace);
    assert [] + core + LineEnd == core + LineEnd;
  }

  /** The field of "<tag> <text>" is the printed text. */
  lemma FieldOfTagged(tag: string, text: string)
    requires TagShape(tag) && Printed(text)
    ensures ':' in tag + " " + text
    ensures Field(tag + " " + text) == text
  {
    var name := tag[..|tag| - 1];
    var rest := " " + text;
    assert tag == name + [':'];
    AppendAssoc(tag, " ", text);
    SplitAfterHead(name, ':', rest);
    NotInAppend(':', " ", text);
    assert Split(rest, ':') == [rest];
    assert PyText.IsSpace(' ');
    StripPadded(" ", text, [], PyText.IsSpace);
    assert " " + text + [] == rest;
  }

  /** The reader gets a tagged line's value back: the stripped line is the
      tag, one space and the printed text, and its field is that text. */
  lemma TaggedField(tag: string, text: string)
    requires TagShape(tag) && Printed(text)
    ensures PyText.Strip(tag + " " + text + LineEnd) == tag + " " + text
    ensures PyText.StartsWith(tag + " " + text, tag)
    ensures ':' in tag + " " + text
    ensures Field(tag + " " + text) == text
  {
    TaggedLine(tag, text);
    FieldOfTagged(tag, text);
  }

  /** The printed tagged line strips to itself and starts with its tag. */
  lemma TaggedLine(tag: string, text: string)
    requires TagShape(tag) && Printed(text)
    ensures PyText.Strip(tag + " " + text + LineEnd) == tag + " " + text
    ensures PyText.StartsWith(tag + " " + text, tag)
  {
    var core := tag + " " + text;
    assert core[0] == tag[0];
    assert core[|core| - 1] == text[|text| - 1];
    StripLineEnd(core);
    assert core[..|tag|] == tag;
  }

  /** The separator line strips to the separator. */
  lemma SeparatorStrips()
    ensures PyText.Strip(Separator + LineEnd) == Separator
  {
    LineEndIsBlank();
    StripPadded([], Separator, LineEnd, PyText.IsSpace);
    assert [] + Separator + LineEnd == Separator + LineEnd;
  }

  /** The separator is recognised as one. */
  lemma SeparatorKind()
    ensures KindOf(Separator) == SeparatorLine
  {
    assert Separator[0] == '-';
    assert !PyText.StartsWith(Separator, LatitudeTag) by {
      assert Separator[..|LatitudeTag|][0] == '-' != LatitudeTag[0];
    }
    assert !PyText.StartsWith(Separator, LongitudeTag) by {
      assert Separator[..|LongitudeTag|][0] == '-' != LongitudeTag[0];
    }
    assert !PyText.StartsWith(Separator, SatellitesTag) by {
      assert Separator[..|SatellitesTag|][0] == '-' != SatellitesTag[0];
    }
  }

  /** The separator line strips to the separator, which is recognised as
      one. */
  lemma SeparatorField()
    ensures PyText.Strip(Separator + LineEnd) == Separator
    ensures KindOf(Separator) == SeparatorLine
  {
    SeparatorStrips();
    SeparatorKind();
  }

  /** A latitude line is recognised as one. */
  lemma LatitudeKind(text: string)
    ensures KindOf(LatitudeTag + " " + text) == LatitudeLine
  {
    var line := LatitudeTag + " " + text;
    assert line[..|LatitudeTag|] == LatitudeTag;
  }

  /** A longitude line is not mistaken for a latitude line. */
  lemma LongitudeKind(text: string)
    ensures KindOf(LongitudeTag + " " + text) == LongitudeLine
  {
    var line := LongitudeTag + " " + text;
    assert line[..|LongitudeTag|] == LongitudeTag;
    assert line[1] == 'o';
    assert !PyText.StartsWith(line, LatitudeTag) by {
      assert line[..|LatitudeTag|][1] == 'o' != LatitudeTag[1];
    }
  }

  /** The printed latitude line sets the pending latitude, and only that. */
  lemma LatitudeStep(g: Gps, text: string, v: Float, now: real, parse: Parsers, odo: Odometry)
    requires Printed(text) && parse.toFloat(text) == Some(v)
    ensures Step(g, LatitudeTag + " " + text + LineEnd, now, parse, odo)
         == g.(pending := g.pending.(lat := Some(v)))
  {
    TagsShaped();
    TaggedField(LatitudeTag, text);
    LatitudeKind(text);
  }

  /** The printed longitude line sets the pending longitude, and only that. */
  lemma LongitudeStep(g: Gps, text: string, v: Float, now: real, parse: Parsers, odo: Odometry)
    requires Printed(text) && parse.toFloat(text) == Some(v)
    ensures Step(g, LongitudeTag + " " + text + LineEnd, now, parse, odo)
         == g.(pending := g.pending.(lon := Some(v)))
  {
    TagsShaped();
    TaggedField(LongitudeTag, text);
    LongitudeKind(text);
  }

  /** A satellite line is not mistaken for a coordinate line. */
  lemma SatellitesKind(text: string)
    ensures KindOf(SatellitesTag + " " + text) == SatellitesLine
  {
    var line := SatellitesTag + " " + text;
    assert line[..|SatellitesTag|] == SatellitesTag;
    assert line[0] == 'S';
    assert !PyText.StartsWith(line, LatitudeTag) by {
      assert line[..|LatitudeTag|][0] == 'S' != LatitudeTag[0];
    }
    assert !PyText.StartsWith(line, LongitudeTag) by {
      assert line[..|LongitudeTag|][0] == 'S' != LongitudeTag[0];
    }
  }

  /** The printed satellite line sets the pending count, and only that. */
  lemma SatellitesStep(g: Gps, text: string, n: int, now: real, parse: Parsers, odo: Odometry)
    requires Printed(text) && parse.toInt(text) == Some(n)
    ensures Step(g, SatellitesTag + " " + text + LineEnd, now, parse, odo)
         == g.(pending := g.pending.(satellites := Some(n)))
  {
    TagsShaped();
    TaggedField(SatellitesTag, text);
    SatellitesKind(text);
  }

  /** `Run` over four lines is four steps. */
  lemma RunFour(g: Gps, lines: seq<string>, times: seq<real>, parse: Parsers, odo: Odometry)
    requires |lines| == 4 && |times| == 4
    ensures Run(g, lines, times, parse, odo)
         == Step(Step(Step(Step(g, lines[0], times[0], parse, odo), lines[1], times[1], parse, odo),
                      lines[2], times[2], parse, odo), lines[3], times[3], parse, odo)
  {
    var g1 := Step(g, lines[0], times[0], parse, odo);
    var g2 := Step(g1, lines[1], times[1], parse, odo);
    var g3 := Step(g2, lines[2], times[2], parse, odo);
    var g4 := Step(g3, lines[3], times[3], parse, odo);
    RunCons(g3, lines[3..], times[3..], parse, odo);
    assert lines[3..][1..] == [] && times[3..][1..] == [];
    RunCons(g2, lines[2..], times[2..], parse, odo);
    assert lines[2..][1..] == lines[3..] && times[2..][1..] == times[3..];
    RunCons(g1, lines[1..], times[1..], parse, odo);
    assert lines[1..][1..] == lines[2..] && times[1..][1..] == times[2..];
    RunCons(g, lines, times, parse, odo);
  }

  /** `Run` over a non-empty list is its first step, then the rest. */
  lemma RunCons(g: Gps, lines: seq<string>, times: seq<real>, parse: Parsers, odo: Odometry)
    requires |lines| > 0 && |times| == |lines|
    ensures Run(g, lines, times, parse, odo)
         == Run(Step(g, lines[0], times[0], parse, odo), lines[1..], times[1..], parse, odo)
  {
  }

  /** The printed separator commits the pending pair and clears the
      pending fields when the commit does not raise. */
  lemma SeparatorStep(g: Gps, now: real, parse: Parsers, odo: Odometry)
    requires g.pending.lat.Some? && g.pending.lon.Some?
    requires !Raises(g, Fix(g.pending.lat.value, g.pending.lon.value), now, odo)
    ensures Step(g, Separator + LineEnd, now, parse, odo)
         == Commit(g, Fix(g.pending.lat.value, g.pending.lon.value), now, odo).(pending := Cleared)
  {
    SeparatorField();
  }

  /** The printed separator changes nothing when the commit raises. */
  lemma SeparatorRaisingStep(g: Gps, now: real, parse: Parsers, odo: Odometry)
    requires g.pending.lat.Some? && g.pending.lon.Some?
    requires Raises(g, Fix(g.pending.lat.value, g.pending.lon.value), now, odo)
    ensures Step(g, Separator + LineEnd, now, parse, odo) == g
  {
    SeparatorField();
  }

  /** Round trip: whatever the reader had pending before, feeding it one
      printed block with parseable numbers appends exactly that fix to the
      history, mirrors it into `latest_data` with the printed satellite
      count, and leaves nothing pending, unless the commit itself raises. */
  lemma {:induction false} BlockCommitsOneFix(
    g: Gps, lat: Float, lon: Float, sats: int,
    latText: string, lonText: string, satText: string,
    times: seq<real>, parse: Parsers, odo: Odometry)
    requires Printed(latText) && Printed(lonText) && Printed(satText)
    requires parse.toFloat(latText) == Some(lat)
    requires parse.toFloat(lonText) == Some(lon)
    requires parse.toInt(satText) == Some(sats)
    requires |times| == 4
    requires !Raises(g, Fix(lat, lon), times[3], odo)
    ensures var g' := Run(g, Block(latText, lonText, satText), times, parse, odo);
      && g'.history == g.history + [Fix(lat, lon)]
      && g'.latest.lat == lat && g'.latest.lon == lon
      && g'.latest.satellites == sats
      && g'.lastTime == Some(times[3])
      && g'.pending == Cleared
  {
    var lines := Block(latText, lonText, satText);
    LatitudeStep(g, latText, lat, times[0], parse, odo);
    var g1 := g.(pending := g.pending.(lat := Some(lat)));
    LongitudeStep(g1, lonText, lon, times[1], parse, odo);
    var g2 := g1.(pending := g1.pending.(lon := Some(lon)));
    SatellitesStep(g2, satText, sats, times[2], parse, odo);
    var g3 := g2.(pending := g2.pending.(satellites := Some(sats)));
    assert g3.history == g.history && g3.lastTime == g.lastTime;
    assert g3.pending == Pending(Some(lat), Some(lon), Some(sats));
    assert Raises(g3, Fix(lat, lon), times[3], odo) == Raises(g, Fix(lat, lon), times[3], odo);
    SeparatorStep(g3, times[3], parse, odo);
    RunFour(g, lines, times, parse, odo);
  }

  /** The other outcome: when the commit of a printed block raises, the
      history, `latest_data` and `last_time` stay as they were, and the
      block's three values are left pending. */
  lemma {:induction false} RaisingBlockCommitsNothing(
    g: Gps, lat: Float, lon: Float, sats: int,
    latText: string, lonText: string, satText: string,
    times: seq<real>, parse: Parsers, odo: Odometry)
    requires Printed(latText) && Printed(lonText) && Printed(satText)
    requires parse.toFloat(latText) == Some(lat)
    requires parse.toFloat(lonText) == Some(lon)
    requires parse.toInt(satText) == Some(sats)
    requires |times| == 4
    requires Raises(g, Fix(lat, lon), times[3], odo)
    ensures var g' := Run(g, Block(latText, lonText, satText), times, parse, odo);
      && g'.history == g.history && g'.latest == g.latest && g'.lastTime == g.lastTime
      && g'.pending == Pending(Some(lat), Some(lon), Some(sats))
  {
    var lines := Block(latText, lonText, satText);
    LatitudeStep(g, latText, lat, times[0], parse, odo);
    var g1 := g.(pending := g.pending.(lat := Some(lat)));
    LongitudeStep(g1, lonText, lon, times[1], parse, odo);
    var g2 := g1.(pending := g1.pending.(lon := Some(lon)));
    SatellitesStep(g2, satText, sats, times[2], parse, odo);
    var g3 := g2.(pending := g2.pending.(satellites := Some(sats)));
    assert g3.history == g.history && g3.lastTime == g.lastTime;
    assert g3.pending == Pending(Some(lat), Some(lon), Some(sats));
    assert Raises(g3, Fix(lat, lon), times[3], odo) == Raises(g, Fix(lat, lon), times[3], odo);
    SeparatorRaisingStep(g3, times[3], parse, odo);
    RunFour(g, lines, times, parse, odo);
  }
}

=== FILE: map2d.dfy ===
/** `map_2D.py`: one animation frame of the live distance plot fed by a TCP
    socket. Each frame receives at most one chunk, appends it to a byte
    buffer, takes at most one newline-terminated line out of the buffer,
    parses it as a distance and, when that succeeds, records the reading and
    rebuilds the x-window and the fill polygons. The socket, `decode` and
    `float()` are inputs: the outcome of `recv` is a `Recv` value, and
    decoding and parsing are function parameters. */
module Map2D {
  import opened Wrappers
  import opened Bytes
  import opened Seqs
  import PyText
  import opened PyFloat
  import opened ReadingHistory

  /** What one `sock.recv(1024)` produced: bytes (empty when the peer closed
      the connection), a `socket.timeout`, or any other exception. */
  datatype Recv = Received(data: seq<byte>) | TimedOut | Broken

  /** The frame's state: whether `sock` is still set, `recv_buffer`, the
      readings, the axis window and the fill polygons on screen. */
  datatype Plot = Plot(open: bool, buffer: seq<byte>, history: Readings,
                       xlim: (int, int), fill: seq<Quad>)

  /** Before the first frame: the connection attempt's outcome, an empty
      buffer, no readings, the initial window (0, 100) and no fill. */
  function Initial(connected: bool): Plot {
    Plot(connected, [], Empty, (0, 100), [])
  }

  /** The buffer after a chunk, and the line taken out of it, if any. */
  datatype Framed = Framed(buffer: seq<byte>, line: Option<seq<byte>>)

  /** `recv_buffer += data`, `split(b'\n')`, and when there is more than one
      part, the first part as the line and the others re-joined as the new
      buffer. No byte is lost or duplicated, the line is what precedes the
      first newline, and exactly one newline is consumed, so any further
      complete lines stay in the buffer for later frames. */
  function Frame(buffer: seq<byte>, data: seq<byte>): (f: Framed)
    ensures data == [] ==> f == Framed(buffer, None)
    ensures data != [] && LF !in buffer + data ==> f == Framed(buffer + data, None)
    ensures data != [] && LF in buffer + data ==>
      && f.line.Some?
      && buffer + data == f.line.value + [LF] + f.buffer
      && f.line.value == (buffer + data)[..IndexOf(buffer + data, LF)]
      && multiset(f.buffer)[LF] == multiset(buffer + data)[LF] - 1
  {
    if data == [] then Framed(buffer, None)
    else
      var joined := buffer + data;
      var parts := Split(joined, LF);
      if |parts| > 1 then
        JoinSplit(joined, LF);
        var rest := Join(LF, parts[1..]);
        assert joined == parts[0] + [LF] + rest;
        assert LF !in parts[0];
        assert multiset(joined) == multiset(parts[0]) + multiset([LF]) + multiset(rest);
        Framed(rest, Some(parts[0]))
      else
        Framed(joined, None)
  }

  /** Lines 68-82: the receive step. Without a socket nothing happens; a
      timeout or an empty chunk leaves the buffer as it was; any other
      exception drops the socket for good. */
  function Receive(p: Plot, r: Recv): (res: (Plot, Option<seq<byte>>))
    ensures res.0.history == p.history && res.0.xlim == p.xlim && res.0.fill == p.fill
    ensures !p.open ==> res == (p, None)
    ensures p.open && (r.TimedOut? || r == Received([])) ==> res == (p, None)
    ensures p.open && r.Broken? ==> !res.0.open && res.1.None?
    ensures p.open && r.Received? ==>
      res.0.open && Frame(p.buffer, r.data) == Framed(res.0.buffer, res.1)
  {
    if !p.open then (p, None)
    else
      match r
      case Received(data) =>
        var f := Frame(p.buffer, data);
        (p.(buffer := f.buffer), f.line)
      case TimedOut => (p, None)
      case Broken => (p.(open := false), None)
  }

  /** The distance a received line carries: `line_serial` is the decoded,
      stripped line, and `float()` runs only when it is non-empty, so a
      missing or blank line never yields a reading whatever `float()` does,
      and any other line yields exactly what `float()` makes of it. */
  function Reading(line: Option<seq<byte>>, decode: seq<byte> -> string,
                   parse: string -> Option<Float>): (d: Option<Float>)
    ensures line.None? ==> d.None?
    ensures line.Some? && (forall i :: 0 <= i < |decode(line.value)| ==> PyText.IsSpace(decode(line.value)[i])) ==>
      d.None?
    ensures d.Some? ==> line.Some? && parse(PyText.Strip(decode(line.value))) == d
    ensures line.Some? && PyText.Strip(decode(line.value)) != [] ==>
      d == parse(PyText.Strip(decode(line.value)))
  {
    match line
    case None => None
    case Some(raw) =>
      var text := PyText.Strip(decode(raw));
      if |text| > 0 then parse(text) else None
  }

  /** One call of `update`. A frame without a reading changes neither the
      readings nor the view; a reading is appended once to both lists, moves
      the window to the newest hundred readings and rebuilds the fill from
      all of them. The list invariant is preserved. */
  function Update(p: Plot, r: Recv, decode: seq<byte> -> string,
                  parse: string -> Option<Float>): (p': Plot)
    requires Valid(p.history)
    ensures Valid(p'.history)
    ensures p'.open == Receive(p, r).0.open && p'.buffer == Receive(p, r).0.buffer
    ensures Reading(Receive(p, r).1, decode, parse).None? ==>
      p'.history == p.history && p'.xlim == p.xlim && p'.fill == p.fill
    ensures Reading(Receive(p, r).1, decode, parse).Some? ==>
      var d := Reading(Receive(p, r).1, decode, parse).value;
      && p'.history.index == p.history.index + 1
      && p'.history.ys == p.history.ys + [d]
      && p'.history.xs == p.history.xs + [p.history.index]
      && p'.xlim == XLimits(p'.history.index)
      && |p'.fill| == (if p'.history.index < 2 then 0 else p'.history.index - 1)
      && p'.fill == Fill(p'.history.xs, p'.history.ys)
  {
    var (q, line) := Receive(p, r);
    match Reading(line, decode, parse)
    case None => q
    case Some(d) =>
      AppendValid(q.history, d);
      var h := Append(q.history, d);
      q.(history := h, xlim := XLimits(h.index), fill := Fill(h.xs, h.ys))
  }

  /** All the bytes of a sequence of chunks, in order. */
  function Flatten(chunks: seq<seq<byte>>): seq<byte> {
    if |chunks| == 0 then [] else chunks[0] + Flatten(chunks[1..])
  }

  /** Lines written back out with their terminating newlines. */
  function Terminated(lines: seq<seq<byte>>): seq<byte> {
    if |lines| == 0 then [] else lines[0] + [LF] + Terminated(lines[1..])
  }

  /** The buffer and the lines taken out while a connection delivers
      `chunks`, one chunk per frame. */
  function Stream(buffer: seq<byte>, chunks: seq<seq<byte>>): (seq<byte>, seq<seq<byte>>)
    decreases |chunks|
  {
    if |chunks| == 0 then (buffer, [])
    else
      var f := Frame(buffer, chunks[0]);
      var rest := Stream(f.buffer, chunks[1..]);
      (rest.0, (if f.line.Some? then [f.line.value] else []) + rest.1)
  }

  lemma TerminatedCons(line: seq<byte>, lines: seq<seq<byte>>)
    ensures Terminated([line] + lines) == line + [LF] + Terminated(lines)
  {
    assert ([line] + lines)[1..] == lines;
  }

  /** One frame's share of the stream: the bytes before and after it. */
  lemma FrameConservesBytes(buffer: seq<byte>, data: seq<byte>)
    ensures var f := Frame(buffer, data);
      buffer + data == (if f.line.Some? then f.line.value + [LF] else []) + f.buffer
  {
  }

  /** Over a whole connection, the lines handed to the parser (each with its
      newline) followed by what is still buffered are exactly the bytes
      received, in order. */
  lemma {:induction false} StreamConservesBytes(buffer: seq<byte>, chunks: seq<seq<byte>>)
    ensures buffer + Flatten(chunks) == Terminated(Stream(buffer, chunks).1) + Stream(buffer, chunks).0
    decreases |chunks|
  {
    if |chunks| > 0 {
      var f := Frame(buffer, chunks[0]);
      var rest := Stream(f.buffer, chunks[1..]);
      StreamConservesBytes(f.buffer, chunks[1..]);
      FrameConservesBytes(buffer, chunks[0]);
      var tail := Flatten(chunks[1..]);
      assert Flatten(chunks) == chunks[0] + tail;
      if f.line.Some? {
        var ls := [f.line.value] + rest.1;
        assert Stream(buffer, chunks) == (rest.0, ls);
        TerminatedCons(f.line.value, rest.1);
        Regroup(buffer, chunks[0], tail, f.line.value + [LF], f.buffer, Terminated(rest.1), rest.0);
      } else {
        assert [] + rest.1 == rest.1;
        assert Stream(buffer, chunks) == (rest.0, rest.1);
        Regroup(buffer, chunks[0], tail, [], f.buffer, Terminated(rest.1), rest.0);
      }
    }
  }

  lemma Regroup(buffer: seq<byte>, data: seq<byte>, tail: seq<byte>,
                head: seq<byte>, kept: seq<byte>, lines: seq<byte>, left: seq<byte>)
    requires buffer + data == head + kept
    requires kept + tail == lines + left
    ensures buffer + (data + tail) == (head + lines) + left
  {
    calc {
      buffer + (data + tail);
      (buffer + data) + tail;
      (head + kept) + tail;
      head + (kept + tail);
      head + (lines + left);
    }
  }
}

=== FILE: old_map.dfy ===
/** `Old_Robot/Old_map.py`: the serial-port version of the live distance
    plot. Each frame reads one line, and a line that strips to a number is
    recorded with the same append as `map_2D.py`; the x-window follows the
    newest hundred readings while the stored lists keep every reading. The
    serial port is an input (the decoded line `readline` returned) and
    `float()` is a parameter. */
module OldMap {
  import opened Wrappers
  import Seqs
  import PyText
  import opened PyFloat
  import opened ReadingHistory

  /** The readings and the axis window. */
  datatype OldPlot = OldPlot(history: Readings, xlim: (int, int))

  /** Lines 18-21 and 12: no readings, window (0, 100). */
  const Initial: OldPlot := OldPlot(Empty, (0, 100))

  /** The distance a line carries: the stripped line, parsed only when it is
      non-empty (lines 26-29). A blank line yields nothing whatever `float()`
      does, and any other line yields exactly what `float()` makes of it. */
  function Reading(line: string, parse: string -> Option<Float>): (d: Option<Float>)
    ensures (forall i :: 0 <= i < |line| ==> PyText.IsSpace(line[i])) ==> d.None?
    ensures d.Some? ==> parse(PyText.Strip(line)) == d
    ensures PyText.Strip(line) != [] ==> d == parse(PyText.Strip(line))
  {
    var text := PyText.Strip(line);
    if |text| > 0 then parse(text) else None
  }

  /** Blanks around a number, such as the "\r\n" of Arduino's `println`,
      do not matter: the padded line carries what `float()` makes of the
      number alone. */
  lemma ReadingIgnoresPadding(lead: string, core: string, trail: string, parse: string -> Option<Float>)
    requires forall i :: 0 <= i < |lead| ==> PyText.IsSpace(lead[i])
    requires forall i :: 0 <= i < |trail| ==> PyText.IsSpace(trail[i])
    requires |core| > 0 && !PyText.IsSpace(core[0]) && !PyText.IsSpace(core[|core| - 1])
    ensures Reading(lead + core + trail, parse) == parse(core)
  {
    Seqs.StripPadded(lead, core, trail, PyText.IsSpace);
  }

  /** One call of `update`. A blank line or one `float()` rejects changes
      nothing, because the parse happens before any append; an accepted
      reading appends its counter and distance, advances the counter and
      moves the window. */
  function Update(p: OldPlot, line: string, parse: string -> Option<Float>): (p': OldPlot)
    requires Valid(p.history)
    ensures Valid(p'.history)
    ensures PyText.Strip(line) == [] ==> p' == p
    ensures parse(PyText.Strip(line)).None? ==> p' == p
    ensures PyText.Strip(line) != [] && parse(PyText.Strip(line)).Some? ==>
      && p'.history.ys == p.history.ys + [parse(PyText.Strip(line)).value]
      && p'.history.xs == p.history.xs + [p.history.index]
      && p'.history.index == p.history.index + 1
      && p'.xlim == XLimits(p'.history.index)
  {
    match Reading(line, parse)
    case None => p
    case Some(d) =>
      AppendValid(p.history, d);
      var h := Append(p.history, d);
      OldPlot(h, XLimits(h.index))
  }

  /** Frames one after another, one line each. */
  function Run(p: OldPlot, lines: seq<string>, parse: string -> Option<Float>): (p': OldPlot)
    requires Valid(p.history)
    ensures Valid(p'.history)
    decreases |lines|
  {
    if |lines| == 0 then p else Run(Update(p, lines[0], parse), lines[1..], parse)
  }

  /** The distance one line contributes, if any. */
  function Contribution(line: string, parse: string -> Option<Float>): seq<Float> {
    match Reading(line, parse)
    case None => []
    case Some(d) => [d]
  }

  /** Reference definition: the distances of the lines that are accepted, in
      arrival order. */
  function Accepted(lines: seq<string>, parse: string -> Option<Float>): seq<Float> {
    if |lines| == 0 then [] else Contribution(lines[0], parse) + Accepted(lines[1..], parse)
  }

  /** One frame stores exactly the line's contribution. */
  lemma UpdateContributes(p: OldPlot, line: string, parse: string -> Option<Float>)
    requires Valid(p.history)
    ensures Update(p, line, parse).history.ys == p.history.ys + Contribution(line, parse)
    ensures Update(p, line, parse).history.index == p.history.index + |Contribution(line, parse)|
  {
    if Reading(line, parse).None? {
      assert p.history.ys + [] == p.history.ys;
    }
  }

  lemma RunCons(p: OldPlot, lines: seq<string>, parse: string -> Option<Float>)
    requires Valid(p.history) && |lines| > 0
    ensures Run(p, lines, parse) == Run(Update(p, lines[0], parse), lines[1..], parse)
  {
  }

  /** The stored history is never truncated: after any run it is the old
      history followed by exactly the accepted distances, with the counter
      equal to the number of stored readings. */
  lemma {:induction false} RunKeepsEverything(p: OldPlot, lines: seq<string>, parse: string -> Option<Float>)
    requires Valid(p.history)
    ensures Run(p, lines, parse).history.ys == p.history.ys + Accepted(lines, parse)
    ensures Run(p, lines, parse).history.index == p.history.index + |Accepted(lines, parse)|
    decreases |lines|
  {
    if |lines| == 0 {
      assert p.history.ys + [] == p.history.ys;
    } else {
      var q := Update(p, lines[0], parse);
      var first := Contribution(lines[0], parse);
      var rest := Accepted(lines[1..], parse);
      UpdateContributes(p, lines[0], parse);
      RunKeepsEverything(q, lines[1..], parse);
      RunCons(p, lines, parse);
      assert Accepted(lines, parse) == first + rest;
      Seqs.AppendAssoc(p.history.ys, first, rest);
    }
  }
}

=== FILE: pyfloat.dfy ===
/** Python `float` values as the readers compare them: a real number, an
    infinity or NaN, with IEEE 754 comparisons (every comparison with NaN is
    false). Rounding is not modelled: the readers never compute on the values
    they compare, they only parse, store and compare them. */
module PyFloat {

  datatype Float = Finite(v: real) | PosInf | NegInf | NaN

  /** The integer literals the scripts compare with (`0`, `15`, `200`). */
  function FromInt(n: int): Float {
    Finite(n as real)
  }

  /** Python `a == b`: equal numbers or equal infinities; NaN equals
      nothing, itself included. */
  predicate Eq(a: Float, b: Float) {
    a == b && !a.NaN?
  }

  /** Python `a < b` */
  predicate Lt(a: Float, b: Float) {
    match (a, b)
    case (Finite(x), Finite(y)) => x < y
    case (NegInf, Finite(_)) => true
    case (NegInf, PosInf) => true
    case (Finite(_), PosInf) => true
    case _ => false
  }

  /** Python `a > b` */
  predicate Gt(a: Float, b: Float) {
    Lt(b, a)
  }

  /** Python's `min(a, b)`: the first argument unless the second is strictly
      smaller, so a NaN in first position wins and one in second loses. */
  function Min(a: Float, b: Float): (m: Float)
    ensures m == a || m == b
    ensures !a.NaN? && !b.NaN? ==> !Lt(a, m) && !Lt(b, m)
  {
    if Lt(b, a) then b else a
  }

  /** On ordinary numbers Python's `min` is the mathematical minimum. */
  lemma MinOfFinite(x: real, y: real)
    ensures Min(Finite(x), Finite(y)) == Finite(if x <= y then x else y)
  {
  }
}

=== FILE: pytext.dfy ===
/** The handful of Python `str` methods the readers rely on: `isspace`,
    `strip()`, `startswith` and `splitlines()`. Characters are Unicode scalar
    values, as Python 3 strings are. */
module PyText {
  import Seqs

  /** Python's `str.isspace` for one character: the characters whose
      bidirectional class is WS, B or S, or whose category is Zs. */
  predicate IsSpace(c: char) {
    || '\t' <= c <= '\r'
    || '\U{1C}' <= c <= ' '
    || c == '\U{85}' || c == '\U{A0}' || c == '\U{1680}'
    || '\U{2000}' <= c <= '\U{200A}'
    || c == '\U{2028}' || c == '\U{2029}' || c == '\U{202F}'
    || c == '\U{205F}' || c == '\U{3000}'
  }

  /** Python's `s.strip()` with no argument: the slice of `s` that starts
      at its first non-blank character and ends at its last. */
  function Strip(s: string): (r: string)
    ensures Seqs.LeadingCount(s, IsSpace) + |r| <= |s|
    ensures r == s[Seqs.LeadingCount(s, IsSpace)..Seqs.LeadingCount(s, IsSpace) + |r|]
    ensures forall i :: Seqs.LeadingCount(s, IsSpace) + |r| <= i < |s| ==> IsSpace(s[i])
    ensures |r| > 0 ==> !IsSpace(r[0]) && !IsSpace(r[|r| - 1])
    ensures r == [] <==> forall i :: 0 <= i < |s| ==> IsSpace(s[i])
  {
    Seqs.Strip(s, IsSpace)
  }

  /** Python's `s.startswith(prefix)`. */
  predicate StartsWith(s: string, prefix: string) {
    |prefix| <= |s| && s[..|prefix|] == prefix
  }

  /** The line boundaries of Python's `str.splitlines`; "\r\n" counts as one. */
  predicate IsLineBreak(c: char) {
    || c == '\n' || c == '\r' || c == '\U{B}' || c == '\U{C}'
    || c == '\U{1C}' || c == '\U{1D}' || c == '\U{1E}'
    || c == '\U{85}' || c == '\U{2028}' || c == '\U{2029}'
  }

  /** Position of the first line boundary, or `|s|` when there is none. */
  function FirstBreak(s: string): (i: nat)
    ensures i <= |s|
    ensures forall j :: 0 <= j < i ==> !IsLineBreak(s[j])
    ensures i < |s| ==> IsLineBreak(s[i])
  {
    if |s| == 0 || IsLineBreak(s[0]) then 0 else 1 + FirstBreak(s[1..])
  }

  /** `s` with every line-boundary character removed. */
  function Unbroken(s: string): (r: string)
    ensures |r| <= |s|
    ensures forall j :: 0 <= j < |r| ==> !IsLineBreak(r[j])
  {
    if |s| == 0 then [] else (if IsLineBreak(s[0]) then [] else [s[0]]) + Unbroken(s[1..])
  }

  /** The lines laid end to end, with nothing between them. */
  function Concat(lines: seq<string>): string {
    if |lines| == 0 then [] else lines[0] + Concat(lines[1..])
  }

  lemma {:induction false} UnbrokenAppend(a: string, b: string)
    ensures Unbroken(a + b) == Unbroken(a) + Unbroken(b)
    decreases |a|
  {
    if |a| == 0 {
      assert a + b == b;
    } else {
      assert (a + b)[1..] == a[1..] + b;
      UnbrokenAppend(a[1..], b);
      var h := if IsLineBreak(a[0]) then [] else [a[0]];
      Seqs.AppendAssoc(h, Unbroken(a[1..]), Unbroken(b));
    }
  }

  /** A text without boundaries loses nothing. */
  lemma {:induction false} UnbrokenClean(s: string)
    requires forall j :: 0 <= j < |s| ==> !IsLineBreak(s[j])
    ensures Unbroken(s) == s
    decreases |s|
  {
    if |s| > 0 {
      UnbrokenClean(s[1..]);
      assert [s[0]] + s[1..] == s;
    }
  }

  /** A text of boundaries only vanishes. */
  lemma {:induction false} UnbrokenBreaks(s: string)
    requires forall j :: 0 <= j < |s| ==> IsLineBreak(s[j])
    ensures Unbroken(s) == []
    decreases |s|
  {
    if |s| > 0 {
      UnbrokenBreaks(s[1..]);
    }
  }

  /** Cutting a text at a boundary: the line before it, then the text
      after it with its breaks removed. */
  lemma CutAtBreak(line: string, breaks: string, rest: string)
    requires forall j :: 0 <= j < |line| ==> !IsLineBreak(line[j])
    requires forall j :: 0 <= j < |breaks| ==> IsLineBreak(breaks[j])
    ensures Unbroken(line + breaks + rest) == line + Unbroken(rest)
  {
    var after := Unbroken(rest);
    UnbrokenBreaks(breaks);
    UnbrokenAppend(breaks, rest);
    assert Unbroken(breaks) + after == after;
    UnbrokenClean(line);
    UnbrokenAppend(line, breaks + rest);
    assert Unbroken(line + (breaks + rest)) == line + after;
    Seqs.AppendAssoc(line, breaks, rest);
  }

  /** Python's `s.splitlines()`: the text between boundaries, without the
      boundaries, and no empty line after a final boundary. Laid end to end
      the lines are exactly `s` without its break characters, and a text
      without boundaries is a single line. Where the text is cut is fixed by
      `SplitLinesCons` and `SplitLinesAtBreak`. */
  function SplitLines(s: string): (lines: seq<string>)
    ensures |lines| == 0 <==> |s| == 0
    ensures forall k, j :: 0 <= k < |lines| && 0 <= j < |lines[k]| ==> !IsLineBreak(lines[k][j])
    ensures Concat(lines) == Unbroken(s)
    ensures |s| > 0 && (forall j :: 0 <= j < |s| ==> !IsLineBreak(s[j])) ==> lines == [s]
    decreases |s|
  {
    if |s| == 0 then []
    else
      var i := FirstBreak(s);
      if i == |s| then
        UnbrokenClean(s);
        assert Concat([s]) == s + Concat([]);
        [s]
      else
        var next := if s[i] == '\r' && i + 1 < |s| && s[i + 1] == '\n' then i + 2 else i + 1;
        assert s == s[..i] + s[i..next] + s[next..];
        CutAtBreak(s[..i], s[i..next], s[next..]);
        var rest := SplitLines(s[next..]);
        assert ([s[..i]] + rest)[1..] == rest;
        [s[..i]] + rest
  }

  /** A text without boundaries is one line, and a line terminated by "\n"
      or by the "\r\n" that Arduino's `println` sends is split off before
      the rest: the facts a reader of newline-framed readings relies on. */
  lemma SplitLinesCons(line: string, rest: string)
    requires forall j :: 0 <= j < |line| ==> !IsLineBreak(line[j])
    ensures |line| > 0 ==> SplitLines(line) == [line]
    ensures SplitLines(line + "\n" + rest) == [line] + SplitLines(rest)
    ensures SplitLines(line + "\r\n" + rest) == [line] + SplitLines(rest)
  {
    var s := line + "\n" + rest;
    assert s[|line|] == '\n';
    var i := FirstBreak(s);
    assert forall j :: 0 <= j < |line| ==> s[j] == line[j];
    assert i == |line|;
    assert s[..i] == line;
    assert s[i + 1..] == rest;
    if |line| > 0 {
      assert FirstBreak(line) == |line|;
    }
    var t := line + "\r\n" + rest;
    assert t[|line|] == '\r' && t[|line| + 1] == '\n';
    assert forall j :: 0 <= j < |line| ==> t[j] == line[j];
    assert FirstBreak(t) == |line|;
    assert t[..|line|] == line;
    assert t[|line| + 2..] == rest;
  }

  /** Every other boundary cuts too: a break-free line followed by any
      single boundary character (a "\r" not followed by "\n", "\v", "\f",
      "\x1c" to "\x1e", "\x85", "\u2028", "\u2029", or "\n") is split off
      before the rest. With `SplitLinesCons` every kind of first boundary is
      covered. */
  lemma SplitLinesAtBreak(line: string, b: char, rest: string)
    requires forall j :: 0 <= j < |line| ==> !IsLineBreak(line[j])
    requires IsLineBreak(b)
    requires b == '\r' ==> |rest| == 0 || rest[0] != '\n'
    ensures SplitLines(line + [b] + rest) == [line] + SplitLines(rest)
  {
    var s := line + [b] + rest;
    assert s[|line|] == b;
    assert forall j :: 0 <= j < |line| ==> s[j] == line[j];
    assert FirstBreak(s) == |line|;
    assert s[..|line|] == line;
    assert s[|line| + 1..] == rest;
  }
}

=== FILE: reading_history.dfy ===
/** The live distance plot's data, shared by `map_2D.py` and
    `Old_Robot/Old_map.py`: the parallel `x_data`/`y_data` lists with the
    reading counter `index`, the visible x-window, and the per-segment fill
    polygons with their colour keys. */
module ReadingHistory {
  import opened PyFloat

  /** `x_data`, `y_data` and `index` */
  datatype Readings = Readings(xs: seq<int>, ys: seq<Float>, index: nat)

  /** Both lists start empty and `index` at 0. */
  const Empty: Readings := Readings([], [], 0)

  /** The invariant the append keeps: the lists are parallel, as long as the
      counter, and `x_data[i] == i`. */
  ghost predicate Valid(h: Readings) {
    && |h.xs| == |h.ys| == h.index
    && forall i :: 0 <= i < |h.xs| ==> h.xs[i] == i
  }

  /** One accepted reading: the counter goes to `x_data`, the distance to
      `y_data`, and the counter advances. */
  function Append(h: Readings, d: Float): Readings {
    Readings(h.xs + [h.index], h.ys + [d], h.index + 1)
  }

  /** Appending keeps the invariant, adds the reading last to both lists and
      changes nothing that was already stored. */
  lemma AppendValid(h: Readings, d: Float)
    requires Valid(h)
    ensures Valid(Append(h, d))
    ensures |Append(h, d).ys| == |h.ys| + 1
    ensures Append(h, d).ys[|h.ys|] == d && Append(h, d).xs[|h.xs|] == |h.xs|
    ensures Append(h, d).ys[..|h.ys|] == h.ys && Append(h, d).xs[..|h.xs|] == h.xs
  {
  }

  /** `ax.set_xlim(max(0, index - 100), index)`: the window stays at the
      origin for the first hundred readings, then follows the newest one
      with width exactly 100. */
  function XLimits(index: nat): (lim: (int, int))
    ensures 0 <= lim.0 <= lim.1 == index
    ensures lim.1 - lim.0 == if index < 100 then index else 100
  {
    (if index - 100 > 0 then index - 100 else 0, index)
  }

  /** The window shows exactly the newest `min(index, 100)` readings (plus the
      right edge): a stored reading lies inside it iff it is one of them. */
  lemma WindowShowsNewest(h: Readings, i: int)
    requires Valid(h) && 0 <= i < |h.xs|
    ensures XLimits(h.index).0 <= h.xs[i] <= XLimits(h.index).1 <==> i >= h.index - 100
  {
  }

  datatype Vertex = Vertex(x: int, y: Float)

  /** One fill polygon and the value its colour is taken from. */
  datatype Quad = Quad(corners: seq<Vertex>, key: Float)

  /** The polygon under the segment from reading `i - 1` to reading `i`:
      down to the axis at both ends, coloured by the lower end (Python's
      `min`). */
  function Segment(xs: seq<int>, ys: seq<Float>, i: int): Quad
    requires |xs| == |ys| && 1 <= i < |xs|
  {
    Quad([Vertex(xs[i - 1], FromInt(0)), Vertex(xs[i - 1], ys[i - 1]),
          Vertex(xs[i], ys[i]), Vertex(xs[i], FromInt(0))],
         Min(ys[i - 1], ys[i]))
  }

  /** The fill built by the loop over `range(1, len(x_data))`: one polygon
      per consecutive pair, in order, and none for fewer than two points. */
  function Fill(xs: seq<int>, ys: seq<Float>): (polys: seq<Quad>)
    requires |xs| == |ys|
    ensures |polys| == if |xs| < 2 then 0 else |xs| - 1
    ensures forall i :: 1 <= i < |xs| ==> polys[i - 1] == Segment(xs, ys, i)
    decreases |xs|
  {
    if |xs| < 2 then []
    else
      var n := |xs| - 1;
      var prefix := Fill(xs[..n], ys[..n]);
      assert forall i :: 1 <= i < n ==> Segment(xs[..n], ys[..n], i) == Segment(xs, ys, i);
      prefix + [Segment(xs, ys, n)]
  }

  /** Each polygon spans one unit of x, from one reading's position to the
      next, and its colour key is the lower of the two distances whenever
      both are numbers. */
  lemma FillGeometry(h: Readings, i: int)
    requires Valid(h) && 1 <= i < |h.xs|
    ensures var q := Fill(h.xs, h.ys)[i - 1];
      && |q.corners| == 4
      && q.corners[0].x == q.corners[1].x == i - 1
      && q.corners[2].x == q.corners[3].x == i
      && q.corners[1].y == h.ys[i - 1] && q.corners[2].y == h.ys[i]
      && (h.ys[i - 1].Finite? && h.ys[i].Finite? ==>
            q.key.Finite? && q.key.v <= h.ys[i - 1].v && q.key.v <= h.ys[i].v
            && (q.key == h.ys[i - 1] || q.key == h.ys[i]))
  {
    assert Fill(h.xs, h.ys)[i - 1] == Segment(h.xs, h.ys, i);
    if h.ys[i - 1].Finite? && h.ys[i].Finite? {
      MinOfFinite(h.ys[i - 1].v, h.ys[i].v);
    }
  }
}

=== FILE: seqs.dfy ===
/** Sequence primitives shared by the byte-level and the text-level readers:
    the one-separator `split`/`join` pair of Python's `bytes.split(sep)` and
    `str.split(sep)`, stripping of a caller-chosen set of blanks (Python's
    `strip()` and Arduino's `String::trim()` differ only in that set), and
    the "last n elements" view a bounded deque keeps. */
module Seqs {

  /** Position of the first occurrence of `x` in `s`. */
  function IndexOf<T(==)>(s: seq<T>, x: T): (i: nat)
    requires x in s
    ensures i < |s| && s[i] == x
    ensures x !in s[..i]
  {
    if s[0] == x then 0
    else
      var j := IndexOf(s[1..], x);
      assert s[..j + 1] == [s[0]] + s[1..][..j];
      j + 1
  }

  /** Python's `s.split(sep)` for a one-element separator: the maximal
      separator-free pieces, in order, always at least one. */
  function Split<T(==)>(s: seq<T>, sep: T): (parts: seq<seq<T>>)
    ensures |parts| == multiset(s)[sep] + 1
    ensures forall k :: 0 <= k < |parts| ==> sep !in parts[k]
    decreases |s|
  {
    if sep !in s then [s]
    else
      var i := IndexOf(s, sep);
      assert s == s[..i] + [sep] + s[i + 1..];
      assert multiset(s)[sep] == multiset(s[..i])[sep] + 1 + multiset(s[i + 1..])[sep];
      [s[..i]] + Split(s[i + 1..], sep)
  }

  /** Python's `sep.join(parts)`. */
  function Join<T>(sep: T, parts: seq<seq<T>>): seq<T>
  {
    if |parts| == 0 then []
    else if |parts| == 1 then parts[0]
    else parts[0] + [sep] + Join(sep, parts[1..])
  }

  /** Splitting never loses or duplicates an element: joining the pieces back
      with the separator gives the original sequence. */
  lemma {:induction false} JoinSplit<T>(s: seq<T>, sep: T)
    ensures Join(sep, Split(s, sep)) == s
    decreases |s|
  {
    if sep in s {
      var i := IndexOf(s, sep);
      var rest := s[i + 1..];
      JoinSplit(rest, sep);
      assert Split(s, sep) == [s[..i]] + Split(rest, sep);
      assert s == s[..i] + [sep] + rest;
    }
  }

  /** A separator-free head is split off as exactly one piece. */
  lemma SplitAfterHead<T>(head: seq<T>, sep: T, tail: seq<T>)
    requires sep !in head
    ensures Split(head + [sep] + tail, sep) == [head] + Split(tail, sep)
  {
    var s := head + [sep] + tail;
    assert s[|head|] == sep;
    var i := IndexOf(s, sep);
    assert s[..i] == head;
    assert s[i + 1..] == tail;
  }

  /** The other direction: pieces free of the separator come back unchanged
      from splitting their join. */
  lemma {:induction false} SplitJoin<T>(sep: T, parts: seq<seq<T>>)
    requires |parts| >= 1
    requires forall k :: 0 <= k < |parts| ==> sep !in parts[k]
    ensures Split(Join(sep, parts), sep) == parts
    decreases |parts|
  {
    if |parts| == 1 {
      assert sep !in parts[0];
    } else {
      var tail := parts[1..];
      assert sep !in parts[0];
      assert forall k :: 0 <= k < |tail| ==> sep !in tail[k];
      SplitJoin(sep, tail);
      assert Join(sep, parts) == parts[0] + [sep] + Join(sep, tail);
      SplitAfterHead(parts[0], sep, Join(sep, tail));
      assert parts == [parts[0]] + tail;
    }
  }

  /** Number of leading elements that are blanks. */
  function LeadingCount<T>(s: seq<T>, blank: T -> bool): (n: nat)
    ensures n <= |s|
    ensures forall i :: 0 <= i < n ==> blank(s[i])
    ensures n < |s| ==> !blank(s[n])
  {
    if |s| == 0 || !blank(s[0]) then 0
    else 1 + LeadingCount(s[1..], blank)
  }

  /** Number of trailing elements that are blanks. */
  function TrailingCount<T>(s: seq<T>, blank: T -> bool): (n: nat)
    ensures n <= |s|
    ensures forall i :: |s| - n <= i < |s| ==> blank(s[i])
    ensures n < |s| ==> !blank(s[|s| - n - 1])
  {
    if |s| == 0 || !blank(s[|s| - 1]) then 0
    else 1 + TrailingCount(s[..|s| - 1], blank)
  }

  /** `s` with its leading and trailing blanks removed: the result is the
      contiguous middle of `s`, everything cut off is blank, and it neither
      starts nor ends with a blank. */
  function Strip<T>(s: seq<T>, blank: T -> bool): (r: seq<T>)
    ensures LeadingCount(s, blank) + |r| <= |s|
    ensures r == s[LeadingCount(s, blank)..LeadingCount(s, blank) + |r|]
    ensures forall i :: LeadingCount(s, blank) + |r| <= i < |s| ==> blank(s[i])
    ensures |r| > 0 ==> !blank(r[0]) && !blank(r[|r| - 1])
    ensures r == [] <==> forall i :: 0 <= i < |s| ==> blank(s[i])
  {
    var a := LeadingCount(s, blank);
    var t := s[a..];
    var b := TrailingCount(t, blank);
    assert a < |s| ==> t[0] == s[a];
    t[..|t| - b]
  }

  /** Stripping keeps every non-blank element, with its multiplicity. */
  lemma StripKeepsNonBlank<T>(s: seq<T>, blank: T -> bool, x: T)
    requires !blank(x)
    ensures multiset(Strip(s, blank))[x] == multiset(s)[x]
  {
    var a := LeadingCount(s, blank);
    var r := Strip(s, blank);
    var b := a + |r|;
    assert s == s[..a] + r + s[b..];
    assert forall i :: 0 <= i < a ==> s[..a][i] != x;
    assert forall i :: 0 <= i < |s| - b ==> s[b..][i] != x;
    assert multiset(s) == multiset(s[..a]) + multiset(r) + multiset(s[b..]);
  }

  /** The blanks before a non-blank core are exactly the padding. */
  lemma LeadingOfPadded<T>(lead: seq<T>, core: seq<T>, trail: seq<T>, blank: T -> bool)
    requires forall i :: 0 <= i < |lead| ==> blank(lead[i])
    requires |core| > 0 && !blank(core[0])
    ensures LeadingCount(lead + core + trail, blank) == |lead|
  {
    var s := lead + core + trail;
    assert s[|lead|] == core[0];
    assert forall i :: 0 <= i < |lead| ==> s[i] == lead[i];
  }

  /** A non-blank core surrounded by blanks strips to exactly that core. */
  lemma StripPadded<T>(lead: seq<T>, core: seq<T>, trail: seq<T>, blank: T -> bool)
    requires forall i :: 0 <= i < |lead| ==> blank(lead[i])
    requires forall i :: 0 <= i < |trail| ==> blank(trail[i])
    requires |core| > 0 && !blank(core[0]) && !blank(core[|core| - 1])
    ensures Strip(lead + core + trail, blank) == core
  {
    var s := lead + core + trail;
    LeadingOfPadded(lead, core, trail, blank);
    var a := |lead|;
    var r := Strip(s, blank);
    var e := |lead| + |core|;
    assert s[e - 1] == core[|core| - 1];
    assert a + |r| >= e;
    assert forall i :: e <= i < |s| ==> s[i] == trail[i - e];
    assert a + |r| <= e by {
      assert s[a + |r| - 1] == r[|r| - 1];
    }
    assert s[a..e] == core;
  }

  /** Stripping is idempotent. */
  lemma StripIdempotent<T>(s: seq<T>, blank: T -> bool)
    ensures Strip(Strip(s, blank), blank) == Strip(s, blank)
  {
    var r := Strip(s, blank);
    if |r| > 0 {
      StripPadded([], r, [], blank);
      assert [] + r + [] == r;
    }
  }

  /** Concatenation is associative. */
  lemma AppendAssoc<T>(a: seq<T>, b: seq<T>, c: seq<T>)
    ensures a + b + c == a + (b + c)
  {
  }

  /** An element in neither part is not in their concatenation. */
  lemma NotInAppend<T>(x: T, a: seq<T>, b: seq<T>)
    requires x !in a && x !in b
    ensures x !in a + b
  {
  }

  /** A prefix of a prefix is a prefix. */
  lemma PrefixOfPrefix<T>(a: seq<T>, b: seq<T>, c: seq<T>)
    requires |a| <= |b| <= |c| && b[..|a|] == a && c[..|b|] == b
    ensures c[..|a|] == a
  {
    assert c[..|b|][..|a|] == c[..|a|];
  }

  /** The last `n` elements of `s` (all of them when there are fewer): what a
      deque with `maxlen = n` holds after `s` has been appended to it. */
  function LastN<T>(s: seq<T>, n: nat): (r: seq<T>)
    ensures |r| == if |s| <= n then |s| else n
    ensures r == s[|s| - |r|..]
  {
    if |s| <= n then s else s[|s| - n..]
  }

  /** Truncating early and truncating at the end agree: a bounded deque
      keeps the same elements as the full history's tail. */
  lemma LastNAppend<T>(a: seq<T>, b: seq<T>, n: nat)
    ensures LastN(LastN(a, n) + b, n) == LastN(a + b, n)
  {
    var x := LastN(a, n);
    assert a == a[..|a| - |x|] + x;
    assert a + b == a[..|a| - |x|] + (x + b);
  }
}

=== FILE: wrappers.dfy ===
/** The optional value every parser in the model returns: `None` stands for
    the exception the source catches (a failed `float()`, `int()`, or a
    computation that raises). */
module Wrappers {

  datatype Option<+T> = None | Some(value: T)
}
